=== FILE: README.md ===
# Beat This! C++ inference core, modelled in Dafny

`BeatThis::process_audio` finds the beats and downbeats of a piece of music.
1. It mixes interleaved multi-channel audio down to mono.
2. It resamples the mono signal to 22050 Hz.
3. It computes a 128-band log-mel spectrogram with 441-sample hops (50 frames per second).
4. It runs a neural network over overlapping 1500-frame chunks and stitches the per-frame beat and downbeat logits back together ("keep first").
5. It picks peaks: 7-frame local maxima above zero, with nearby peaks merged by their rounded mean.
6. It moves every downbeat onto its nearest beat.
7. It numbers the beats within each measure, estimating the length of a pickup measure from the first full measure.

The project models each of these stages as pure Dafny functions over sequences. Eight of the source's loops are also written as methods, and each method is proved equal to the function it implements: the beat numbering (`BeatCounts.NumberBeats`), the down-mix (`MonoMix.MixDown`), the maximum pool (`PeakPicking.MaxPool1d`), the peak merge (`Dedup.DeduplicatePeaks`), the nearest-beat search (`Postprocess.FindNearestBeat`), the start offsets (`Inference.ComputeStarts`), the aggregation (`Inference.WriteChunk`, `Inference.AggregatePrediction`) and the reflect padding (`Mel.PadAudio`). The other loops (the membership check, the peak flags, frame indices, seconds, the outer snapping loop, chunk copying, scoring, the filterbank and the frame loop) are stated only as functions.

Modelling choices:
- Positions are integer frame indices. Frame `f` stands for the time `f / 50` seconds that the source computes; `Postprocess.Seconds` is that conversion, and `Postprocess.ToleranceIsEquality` shows why the 1e-6 comparisons of the beat numbering become equality on frames.
- Samples, logits, frequencies and filter weights are `real`, so single- and double-precision rounding is not modelled.
- The components the source calls but does not define are parameters, bundled in `Pipeline.Numerics`:
  - the resampler (soxr);
  - the network (the ONNX session);
  - the FFT magnitude of a windowed frame;
  - the logarithm and exponential of the upper mel scale;
  - `log1p`.

Modules, following the source files:

| module | file | source |
|---|---|---|
| `Sequences` | sequences.dfy | shared sequence predicates, sums and means |
| `BeatCounts` | beat_counts.dfy | `calculate_beat_counts` |
| `MonoMix` | mono_mix.dfy | `convert_to_mono` |
| `PeakPicking` | peak_picking.dfy | `max_pool1d_equivalent` and the peak test of `Postprocessor::process` |
| `Dedup` | dedup.dfy | `deduplicate_peaks` |
| `Postprocess` | postprocess.dfy | `Postprocessor::process` |
| `Inference` | inference.dfy | `zeropad`, `split_piece`, `aggregate_prediction`, `process_spectrogram` |
| `Mel` | mel.dfy | `MelSpectrogram`: mel scale, filterbank, reflect padding, framing, log compression |
| `Pipeline` | pipeline.dfy | `BeatThis::process_audio` |

## Model

| member | source | states |
|---|---|---|
| BeatCounts.LowerBound | Source/beat_this_api.cpp:59-63 | The index found is a partition point. Every beat before it is smaller than the downbeat time; the beat at it, if any, is not smaller. |
| BeatCounts.LowerBoundSorted | Source/beat_this_api.cpp:59-63 | On sorted beats, every beat from the index on is at least the searched time. When the time is a beat, the index is in range and holds that time. |
| BeatCounts.PickupStart | Source/beat_this_api.cpp:56-79 | The starting counter is at least 1. The pickup estimate never reports a downbeat that is not a beat. |
| BeatCounts.StateAfter | Source/beat_this_api.cpp:81-97 | The next-downbeat pointer never passes the beats scanned or the end of the downbeats. The counter stays at least 1 when it starts at 1 or above. |
| BeatCounts.Step | Source/beat_this_api.cpp:87-96 | One iteration of the numbering loop: the downbeat pointer moves on by one exactly when the beat is the downbeat it expects, and the counter then restarts at 1. Otherwise the pointer stays and the counter grows by one. What this means for downbeat membership is stated by `BeatCounts.MatchIsMembership`. |
| BeatCounts.NumberingPass | Source/beat_this_api.cpp:81-97 | The numbering pass records one count per beat. |
| BeatCounts.CalculateBeatCounts | Source/beat_this_api.cpp:39-100 | There is one count per beat. Empty beats or empty downbeats give all zeros and no diagnostic. A downbeat missing from the beats gives all zeros and that error. Otherwise every count is at least 1. |
| BeatCounts.NumberBeats | Source/beat_this_api.cpp:81-97 | The numbering loop, with its counter and downbeat pointer, computes the functional pass. |
| BeatCounts.StateBeforeFirstDownbeat | Source/beat_this_api.cpp:81-97 | Before the first downbeat, the counter only increments from its start and the pointer stays at 0. |
| BeatCounts.PickupShorterThanMeasure | Source/beat_this_api.cpp:56-70 | Take at least two downbeats and a pickup shorter than the first measure. The pickup beats are then numbered so that the beat just before the first downbeat gets the measure length, and no warning is issued. |
| BeatCounts.PickupFallback | Source/beat_this_api.cpp:68-79 | With a long pickup or a single downbeat, the matching warning is issued. The beats before the first downbeat are numbered 2, 3, … |
| BeatCounts.SyncedAfter | Source/beat_this_api.cpp:81-97 | For sorted, consistent inputs, the pointer always designates the first downbeat not yet reached. |
| BeatCounts.MatchIsMembership | Source/beat_this_api.cpp:86-92 | The loop's test against the next expected downbeat is true exactly when the beat is a downbeat. |
| BeatCounts.CountOneExactlyAtDownbeats | Source/beat_this_api.cpp:81-97 | A beat gets count 1 if and only if it is a downbeat. Every other beat gets at least 2, one more than the beat before it. |
| BeatCounts.BeatCountsMarkDownbeats | Source/beat_this_api.cpp:39-100 | The same statement for the whole function, for strictly increasing beats that contain the downbeats. |
| BeatCounts.ExampleWithPickup | Source/beat_this_api.cpp:39-100 | One pickup beat before a four-beat measure is numbered 4, 1, 2, 3, 4, 1. |
| MonoMix.FrameCount | Source/beat_this_api.cpp:136 | With positive channels, the frame count covers the complete frames of the buffer. With a negative channel count, the unsigned conversion gives no frame for any realistic buffer size. |
| MonoMix.FrameMean | Source/beat_this_api.cpp:141-145 | The frame lies inside the buffer. Its mixed sample lies between some channel sample and another, so it is never below the smallest or above the largest. A frame whose channels all agree mixes to that common sample. |
| MonoMix.ConvertToMono | Source/beat_this_api.cpp:131-149 | One channel is returned unchanged. With several channels, a trailing incomplete frame is dropped. A negative channel count yields only zeros, and nothing at all for buffers below 2^63. |
| MonoMix.MixDown | Source/beat_this_api.cpp:136-146 | The nested summation loops compute the per-frame means of the functional model. |
| MonoMix.MixOfIdenticalChannels | Source/beat_this_api.cpp:131-149 | Audio whose channels all carry the same signal mixes down to that signal. |
| MonoMix.MixWithinInputRange | Source/beat_this_api.cpp:139-146 | Every mixed sample lies within the range of the input samples. |
| PeakPicking.PooledAt | Source/Postprocessor.cpp:37-46 | The pooled value is at least every input inside the clipped window, and is one of those inputs. |
| PeakPicking.MaxPool | Source/Postprocessor.cpp:33-48 | Each output is the maximum of the input over the window of half-width kernel/2 clipped to the input. Both the bound and the attainment are stated. |
| PeakPicking.MaxPool1d | Source/Postprocessor.cpp:33-48 | The pooling loops compute the maximum-pool function. |
| PeakPicking.PeakFlags | Source/Postprocessor.cpp:62-71 | A frame is flagged exactly when its logit is positive and at least every logit within 3 frames. |
| PeakPicking.FrameIndices | Source/Postprocessor.cpp:81-94 | The frame list is strictly increasing and contains exactly the flagged frames. |
| PeakPicking.SplitPeaks | Source/Postprocessor.cpp:54-79 | The peak test run over the joined beat and downbeat curves yields one beat flag and one downbeat flag per frame. |
| PeakPicking.BeatPeakAwayFromSeam | Source/Postprocessor.cpp:54-79 | For frames more than 3 before the seam, a beat flag of the joined test is the local-maximum test on the beat curve alone. |
| PeakPicking.DownbeatPeakAwayFromSeam | Source/Postprocessor.cpp:54-79 | For frames 3 or more after the seam, a downbeat flag of the joined test is the local-maximum test on the downbeat curve alone. |
| PeakPicking.SplitPeaksSeparately | Source/Postprocessor.cpp:54-79 | Each curve is tested on its own. A frame is a beat (downbeat) peak exactly when its logit is positive and a local maximum of that curve. |
| PeakPicking.SplitsAgreeAwayFromSeam | Source/Postprocessor.cpp:54-79 | The joined and the separate tests agree on every frame at least 3 frames from the seam. |
| PeakPicking.SeamMixesCurves | Source/Postprocessor.cpp:54-79 | With beat curve [0, 1] and downbeat curve [2, 0], the joined test flags no beat. |
| PeakPicking.SeparateTestKeepsSeamPeak | Source/Postprocessor.cpp:54-79 | On the same curves, the separate test flags the beat peak at frame 1. |
| Dedup.Round | Source/Postprocessor.cpp:22 | The rounded value lies within one half of its argument, with halves rounded away from zero. |
| Dedup.RoundMonotone | Source/Postprocessor.cpp:22 | Rounding preserves order. |
| Dedup.RoundGap | Source/Postprocessor.cpp:22 | Values at least one apart round to different integers. |
| Dedup.JoinsMeansNear | Source/Postprocessor.cpp:18 | The integer join test is the source's test that the peak lies at most `width` above the running mean. |
| Dedup.RunningMean | Source/Postprocessor.cpp:19-20 | The incremental update of `p` yields the arithmetic mean of the run extended by the new peak. |
| Dedup.GroupingAfter | Source/Postprocessor.cpp:13-26 | After n peaks, the closed runs and the open run concatenate to the first n peaks. Every run is non-empty. |
| Dedup.Runs | Source/Postprocessor.cpp:7-29 | The runs concatenate to the peak list, and there are none exactly when there are no peaks. |
| Dedup.RunsIsGrouping | Source/Postprocessor.cpp:16-26 | The scan's runs are coherent and separated. Every peak after the first of its run joined the run before it; every run's first peak did not join the run before. |
| Dedup.GroupingIsUnique | Source/Postprocessor.cpp:16-26 | Any coherent, separated split of the peaks is the scan's own. |
| Dedup.Deduplicate | Source/Postprocessor.cpp:7-29 | The output is no longer than the input, and is empty exactly when the input is. |
| Dedup.DeduplicateIsRoundedMeans | Source/Postprocessor.cpp:7-29 | For any coherent, separated split, the output holds one entry per run: the rounded mean of that run. |
| Dedup.ScanJoin | Source/Postprocessor.cpp:18-20 | A peak within `width` of the running mean joins the open run, and the loop state remains the model's. |
| Dedup.ScanClose | Source/Postprocessor.cpp:21-24 | A peak further away emits the rounded mean and opens a new run, and the loop state remains the model's. |
| Dedup.ScanDone | Source/Postprocessor.cpp:27-28 | Emitting the open run after the last peak completes the output. |
| Dedup.DeduplicatePeaks | Source/Postprocessor.cpp:7-29 | The loop with its running mean and count computes the function. |
| Dedup.RunMeanWithinPeaks | Source/Postprocessor.cpp:7-29 | For increasing peaks, every run's rounded mean lies between the first and last peak. |
| Dedup.DeduplicateIncreasing | Source/Postprocessor.cpp:7-29 | For strictly increasing peaks and width at least 1, the merged peaks are strictly increasing and lie between the first and last peak. |
| Postprocess.Seconds | Source/Postprocessor.cpp:100-109 | Frame times at 50 frames per second: time × 50 is the frame. |
| Postprocess.ToleranceIsEquality | Source/beat_this_api.cpp:89 | Two frame times are within the 1e-6 tolerance exactly when they are the same frame. |
| Postprocess.SecondsMonotone | Source/Postprocessor.cpp:100-109 | Frame order is time order, and non-negative frames have non-negative times. |
| Postprocess.NearestAmong | Source/Postprocessor.cpp:117-123 | The chosen beat is at minimal distance from the downbeat, and every earlier beat is strictly farther (strict `<` keeps the first minimum). |
| Postprocess.NearestBeat | Source/Postprocessor.cpp:113-126 | The chosen index is a valid beat index. `Postprocess.NearestBeatIsFirstMinimum` states that it is the first beat at minimal distance. |
| Postprocess.FindNearestBeat | Source/Postprocessor.cpp:113-126 | The search loop returns -1 without beats, and otherwise the first beat at minimum distance. |
| Postprocess.SnapDownbeats | Source/Postprocessor.cpp:111-128 | With beats, every downbeat is replaced by a beat no farther from it than any other beat. Without beats, the downbeats are unchanged. |
| Postprocess.Insert | Source/Postprocessor.cpp:130-132 | Inserting into a strictly increasing list keeps it strictly increasing, and adds exactly the new value. |
| Postprocess.SortUnique | Source/Postprocessor.cpp:130-132 | Sorting with duplicate removal gives a strictly increasing list with exactly the input's elements. |
| Postprocess.SortedByElements | Source/Postprocessor.cpp:130-132 | Two strictly increasing lists with the same elements are equal, so the sorted-unique result is determined. |
| Postprocess.SortUniqueOfSorted | Source/Postprocessor.cpp:130-132 | Sorting with duplicate removal leaves a strictly increasing list unchanged. |
| Postprocess.MergedPeaksWithinFrames | Source/Postprocessor.cpp:81-98 | Merged peak frames are strictly increasing and lie inside the curve. |
| Postprocess.DecodeSplit | Source/Postprocessor.cpp:81-134 | Merging, snapping and sorting give strictly increasing beats and downbeats inside the curve. Whenever there is a beat, every downbeat is a beat. |
| Postprocess.ProcessAsWritten | Source/Postprocessor.cpp:50-135 | `process` with the joined peak test satisfies the same output guarantees. Its contents are stated by `Postprocess.ProcessAsWrittenWithBeats` and `Postprocess.ProcessAsWrittenWithoutBeats`. |
| Postprocess.DecodeSplitWithBeats | Source/Postprocessor.cpp:81-134 | For any peak split with at least one decoded beat, the beats are the merged beat peaks. The downbeats are exactly the beats nearest to some merged downbeat peak. |
| Postprocess.DecodeSplitWithoutBeats | Source/Postprocessor.cpp:111-132 | For any peak split without decoded beats, the downbeats are the merged downbeat peaks, not moved. |
| Postprocess.ProcessAsWrittenWithBeats | Source/Postprocessor.cpp:54-134 | With the joined peak test and at least one beat, the beats are the merged beat peaks. The downbeats are exactly the beats nearest to some merged downbeat peak. |
| Postprocess.ProcessAsWrittenWithoutBeats | Source/Postprocessor.cpp:54-132 | With the joined peak test and no beats, the downbeats are the merged downbeat peaks, not moved. |
| Postprocess.Process | Source/Postprocessor.cpp:50-135 | `process` with each curve tested on its own gives strictly increasing beats and downbeats inside the curve. Whenever there is a beat, every downbeat is a beat. |
| Postprocess.ProcessWithBeats | Source/Postprocessor.cpp:81-134 | With at least one beat, the beats are the merged beat peaks. The downbeats are exactly the beats nearest to some merged downbeat peak. |
| Postprocess.DecodedDownbeatsAreSnappedPeaks | Source/Postprocessor.cpp:111-132 | After snapping and sorting, a frame is a downbeat exactly when it is the beat chosen for some downbeat peak. |
| Postprocess.ProcessWithoutBeats | Source/Postprocessor.cpp:111-132 | Without beats, the downbeats are the merged downbeat peaks, not moved. |
| Postprocess.MergeSinglePeak | Source/Postprocessor.cpp:7-29 | A single peak is kept as it is. |
| Postprocess.SplitOfRisingPair | Source/Postprocessor.cpp:54-79 | On beat curve [0] and downbeat curve [1], both peak tests flag only the downbeat. |
| Postprocess.DownbeatWithoutBeat | Source/Postprocessor.cpp:111-132 | A curve with a downbeat peak and no beat peak yields a downbeat that is not a beat. |
| Inference.Zeropad | Source/InferenceProcessor.cpp:46-64 | Without padding, the input is returned as it is. Otherwise the output has `left` zero rows, then each input row cut to the first row's width, then `right` zero rows. |
| Inference.UnpadZeropad | Source/InferenceProcessor.cpp:46-64 | Removing the padding of a rectangular spectrogram gives it back. |
| Inference.Grid | Source/InferenceProcessor.cpp:78-80 | The grid starts at `start`, keeps a constant step and stays below `limit`. It stops at the first point at or past the limit. |
| Inference.Starts | Source/InferenceProcessor.cpp:77-85 | There are no starts exactly for an empty spectrogram; the first is -border. Every start lies in [-border, len - border). Consecutive starts rise by at most chunk - 2·border. The last chunk's kept part reaches the end, and a long piece ends at len - (chunk - border). |
| Inference.StartsIncreasing | Source/InferenceProcessor.cpp:77-85 | The start offsets are strictly increasing, including after the last one is moved back. |
| Inference.ComputeStarts | Source/InferenceProcessor.cpp:161-167 | The start loop, repeated in `process_spectrogram`, computes the same offsets as `split_piece`. |
| Inference.Overlap | Source/InferenceProcessor.cpp:89-95 | The copied rows are never empty and form a rectangular block of the spectrogram's width; `Inference.ChunkAt` states which rows they are. |
| Inference.ChunkAt | Source/InferenceProcessor.cpp:89-100 | Row j of the chunk at `start` is spectrogram row start + j when that exists, and a zero row otherwise. The chunk ends at start + chunk or border rows past the piece, whichever comes first. |
| Inference.SplitPiece | Source/InferenceProcessor.cpp:67-103 | There is one chunk per start offset. Every chunk holds the spectrogram rows under it, with zero rows outside the piece. |
| Inference.ApplyChunk | Source/InferenceProcessor.cpp:126-145 | Frames outside the chunk keep their value. A chunk shorter than two borders overwrites every frame it covers with its prediction. A longer chunk overwrites only the frames between its borders, and its border frames keep their value. |
| Inference.FirstWriter | Source/InferenceProcessor.cpp:116-146 | The result is the lowest-index chunk that keeps frame t, or none when no chunk keeps it. |
| Inference.AfterChunksKeepsFirst | Source/InferenceProcessor.cpp:116-146 | After the reverse pass, frame t holds the prediction of the lowest-index chunk that keeps it, or the sentinel -1000 when none does. |
| Inference.AggregateKeepsFirst | Source/InferenceProcessor.cpp:106-148 | Aggregation is "keep first": every frame comes from the earliest chunk that keeps it. |
| Inference.Aggregate | Source/InferenceProcessor.cpp:106-148 | `aggregate_prediction` returns one prediction per frame of the full spectrogram. Which chunk each frame comes from is stated by `Inference.AggregateKeepsFirst` and `Inference.OutputFromFirstChunk`. |
| Inference.WriteChunk | Source/InferenceProcessor.cpp:126-145 | The write loop for one chunk computes the aggregation pass. |
| Inference.AggregatePrediction | Source/InferenceProcessor.cpp:106-148 | The reverse loop over chunks computes the aggregate. |
| Inference.Predictions | Source/InferenceProcessor.cpp:169-171 | The network is scored once per start offset. |
| Inference.ProcessSpectrogram | Source/InferenceProcessor.cpp:151-174 | The stitched beat and downbeat curves have one frame per spectrogram row. |
| Inference.CoveredFrom | Source/InferenceProcessor.cpp:77-85 | Every frame at or after a chunk's kept start lies inside the kept part of that chunk or of a later one. |
| Inference.EveryFrameWritten | Source/InferenceProcessor.cpp:106-174 | When the network returns one frame per input row, every frame of the piece is written by some chunk. |
| Inference.FirstKeepingChunk | Source/InferenceProcessor.cpp:106-174 | Some chunk keeps frame t strictly inside its borders, and the stitched output at t is that chunk's score for the matching row. |
| Inference.OutputFromFirstChunk | Source/InferenceProcessor.cpp:151-174 | Each output frame's beat and downbeat logits are the network's scores for that frame in a chunk that keeps it away from the borders. |
| Inference.NoSentinelSurvives | Source/InferenceProcessor.cpp:113-114 | If the network never outputs -1000, the stitched curves never hold it. |
| Mel.HzToMel | Source/MelSpectrogram.cpp:21-36 | Below 1000 Hz the Slaney mel value is hz / (200/3). |
| Mel.MelToHz | Source/MelSpectrogram.cpp:39-53 | Below mel 15 the frequency is mel · 200/3. |
| Mel.LinearBranchRoundTrip | Source/MelSpectrogram.cpp:21-53 | Below 1000 Hz (mel 15), converting to mel and back (or back and forth) is the identity. |
| Mel.MelPoints | Source/MelSpectrogram.cpp:70-74 | There are 130 mel points from mel_min to mel_max, with equal steps of (max - min)/129. |
| Mel.MelPointsIncreasing | Source/MelSpectrogram.cpp:70-74 | The mel points are strictly increasing when mel_min < mel_max. |
| Mel.BinFrequencies | Source/MelSpectrogram.cpp:82-86 | There are 513 bin frequencies from 0 to 11025 Hz, in steps of 22050/1024. |
| Mel.TriangleWeight | Source/MelSpectrogram.cpp:106-116 | Every filter weight is non-negative. |
| Mel.TriangleShape | Source/MelSpectrogram.cpp:106-116 | For ordered corners, the weight is 0 outside the triangle, 1 at its centre and at most 1 everywhere. It is positive strictly inside. |
| Mel.Filterbank | Source/MelSpectrogram.cpp:94-118 | The filterbank is 513 × 128 with non-negative weights. |
| Mel.FilterSupport | Source/MelSpectrogram.cpp:94-118 | For ordered corners, filter j weighs bin i positively exactly when the bin lies strictly between the filter's outer corners. |
| Mel.MelFilterbank | Source/MelSpectrogram.cpp:65-119 | The filterbank of the constructor is 513 × 128 with non-negative weights. |
| Mel.FirstCornerIsFMin | Source/MelSpectrogram.cpp:67-80 | The first corner frequency is f_min = 30 Hz again. It lies in the linear branch, so the round trip through the mel scale is exact. |
| Mel.ReflectPad | Source/MelSpectrogram.cpp:123-138 | The signal is padded by 512 samples on each side. The front holds audio[512 - k], the middle the signal, and the back the mirror image about the last sample. |
| Mel.ReflectPadMirrors | Source/MelSpectrogram.cpp:127-138 | The padded signal is symmetric about the first and about the last original sample, excluding the sample itself. |
| Mel.PadAudio | Source/MelSpectrogram.cpp:123-138 | The pre-padding, insertion and post-padding loops build the reflect-padded signal. |
| Mel.FrameWindowsInBounds | Source/MelSpectrogram.cpp:142-164 | Every one of the N/441 + 1 windows of 1024 samples lies inside the padded signal. |
| Mel.NumFrames | Source/MelSpectrogram.cpp:142-143 | The frame count of the padded signal is N/441 + 1, so it is at least 1 for every N. This is why the `num_frames <= 0` guard never fires. |
| Mel.FrameCentredOnHop | Source/MelSpectrogram.cpp:159-164 | Frame i is centred on sample i·441 of the signal, and every such sample has a frame. |
| Mel.MelEnergyNonNegative | Source/MelSpectrogram.cpp:183-187 | Mel energies of non-negative amplitudes under non-negative weights are non-negative. |
| Mel.MelEnergy | Source/MelSpectrogram.cpp:183-187 | The energy accumulated bin by bin equals the sum of amplitude × filter weight over the bins. |
| Mel.Log1pArgument | Source/MelSpectrogram.cpp:189 | The argument of log1p is at least 1000 · 1e-10, and is 1000 × energy once the energy reaches 1e-10. |
| Mel.MelRow | Source/MelSpectrogram.cpp:170-190 | One frame yields 128 values, each log1p of an argument at least 1000 · 1e-10. |
| Mel.Compute | Source/MelSpectrogram.cpp:121-196 | Audio of at most 512 samples gives no frames. Longer audio gives N/441 + 1 frames of 128 values, each log1p of a clipped argument (the corrected behaviour; see Findings). |
| Mel.PaddingReads | Source/MelSpectrogram.cpp:127-138 | The pre-padding loop reads audio[512] first and then one sample lower at each step, down to audio[1]. The post-padding loop reads audio[N - 2] down to audio[N - 513], and any index that would be negative wraps to 2^64 plus that value. |
| Mel.PaddingReadsInBoundsIff | Source/MelSpectrogram.cpp:127-138 | Every index the padding loops read is inside the audio exactly when the audio is longer than 512 samples. |
| Mel.ShortAudioReadsPastEnd | Source/MelSpectrogram.cpp:127-138 | For 512 samples the first read is audio[512]. For empty audio the post-padding index wraps to 2^64 - 2. |
| Pipeline.Resampled | Source/beat_this_api.cpp:156-168 | At 22050 Hz the mono signal is used as it is. At any other rate it is the resampler's result, which may fail. |
| Pipeline.Spectrogram | Source/beat_this_api.cpp:170-172 | A signal of at most 512 samples gives an empty spectrogram; longer ones give N/441 + 1 rows of equal width. |
| Pipeline.ProcessAudio | Source/beat_this_api.cpp:152-191 | The run fails exactly when resampling fails, and never at 22050 Hz. On success there is one count per beat. Beats and downbeats are strictly increasing, every downbeat is a beat when there is one, and every frame is centred at or before the end of the signal (frame × 441 ≤ N). Peaks are decoded by `process` as written, with the joined peak test. |
| Pipeline.FramesWithinSignal | Source/beat_this_api.cpp:170-181 | A frame below the spectrogram length is centred at or before the end of the signal: frame × 441 ≤ N. |
| Pipeline.CountsMarkDownbeats | Source/beat_this_api.cpp:183-185 | In a successful run a beat gets count 1 exactly when it is a downbeat. Once a downbeat exists, every other beat is one more than its predecessor. |
| Pipeline.ShortAudioHasNoBeats | Source/beat_this_api.cpp:152-191 | A resampled signal of at most 512 samples gives no beats, no downbeats and no counts (the corrected behaviour; see Findings). |

## Left out

- Resampling (`resample_audio`, Source/beat_this_api.cpp:102-129) is a parameter. It wraps the soxr library, which is not part of this model, and neither is the length of its output.
- The network (`run_onnx_inference`, Source/InferenceProcessor.cpp:10-42) is a parameter `score`. ONNX Runtime is not part of this model. Statements about the stitched output assume it returns one frame per input row (`Inference.LengthPreserving`).
- The Hann window, the FFT and the amplitude normalisation (Source/MelSpectrogram.cpp:56-62, 166-177) are one parameter: the magnitude of bin k of a frame. The model states only the frame each bin is taken from; the caller states the non-negativity of magnitudes.
- The logarithmic branch of the mel scale and `log1p` are parameters. Only the linear branch below 1000 Hz is computed exactly.
- Floating-point rounding is not modelled: samples, logits and weights are reals. In `calculate_beat_counts`, the 1e-6 tolerance and the exact `std::set` lookup both become equality on frame indices.
- Postprocess.Process: returns frame indices rather than seconds; `Postprocess.Seconds` is the conversion, and `Postprocess.SecondsMonotone` shows it preserves order and equality.
- Pipeline.ProcessAudio: decodes peaks with the joined peak test, as the source does. The corrected decoder `Postprocess.Process` is stated on its own and not composed into the pipeline, so the pipeline keeps the seam behaviour of the second finding.
- Pipeline.ProcessAudio: returns frame indices rather than seconds. A failed resampling is an outcome value rather than an exception, and the translation of exceptions (Source/beat_this_api.cpp:193-197) is not modelled.
- The diagnostic messages of `calculate_beat_counts` are the `BeatCounts.Diagnostic` values, not text on the error stream.
- The debugging state of `MelSpectrogram` (`log1p_input_cpp`, `last_power_spectrum`, their accessors in Source/MelSpectrogram.h:31-34, and the stores at Source/MelSpectrogram.cpp:149-150, 180, 188) has no effect on the output and is left out.
- `bin_points` (Source/MelSpectrogram.cpp:88-92) is computed and never used, so it is left out.
- The `int` overflow of frame counts, start offsets and beat counters is not modelled; all such values are unbounded integers. Audio long enough to overflow 32-bit frame counts is far beyond any input the program handles.
- MonoMix.ConvertToMono: requires a non-zero channel count, because the source divides by it. For negative counts the frame count uses the unsigned conversion; the per-frame results then carry no sum at all.
- Inference.SplitPiece: requires a rectangular spectrogram. `zeropad` copies as many columns from every row as the first row has, so a shorter row would be read past its end. Every spectrogram `Mel.Compute` produces is rectangular.
- Inference.Starts: the chunk and border sizes are parameters with 0 ≤ border and 2·border < chunk. The program uses 1500 and 6 (Source/InferenceProcessor.h:34-35; `Inference.ChunkSize`, `Inference.BorderSize`).
- Inference.ProcessSpectrogram: its own contract states only the lengths. The content of every frame is stated by `Inference.OutputFromFirstChunk` and `Inference.NoSentinelSurvives`.
- The frame rate is fixed at 50 (`Postprocess.Fps`; Source/Postprocessor.h:19); the constructor parameter is not modelled.
- `main.cpp`, `beats_to_audio.cpp` and the model export script are tools around the core and are not part of this model.

## Findings

| source | as written | input that shows it | evidently intended | confidence | as-written member | corrected member |
|---|---|---|---|---|---|---|
| Source/MelSpectrogram.cpp:127-146 | The reflect-padding loops read `audio[512]` down to `audio[1]`, and `audio[size - 2]` down to `audio[size - 513]` in unsigned arithmetic, before the `num_frames <= 0` guard. The guard can never fire, since the padded length is at least 1024. | Audio of 512 samples reads `audio[512]`, one past the end. Empty audio computes index 2^64 - 2. | Audio too short to reflect (at most 512 samples) yields an empty spectrogram, which is what the guard at lines 144-146 is there for. | not executed | Mel.PaddingReads, Mel.PaddingReadsInBoundsIff, Mel.ShortAudioReadsPastEnd | Mel.Compute, Pipeline.ShortAudioHasNoBeats |
| Source/Postprocessor.cpp:54-79 | The 7-frame maximum pool and peak test run over the beat curve and the downbeat curve joined end to end. Around the seam, the last beat frames are compared with the first downbeat frames, and vice versa. The comment at line 55 reads "Combine beat and downbeat for parallel processing as in Python", so the join is there to process both curves in one pass, not to let them interact. | Beat logits [0, 1] and downbeat logits [2, 0]: beat frame 1 is a positive local maximum of its curve. The joined test drops it because downbeat frame 0 (value 2) lies in its window. | As the comment describes, joining only batches the two curves: each curve is pooled and tested as if on its own, so a frame's peak status depends only on its own curve. | not executed | Postprocess.ProcessAsWritten, PeakPicking.SplitPeaks, PeakPicking.SeamMixesCurves | Postprocess.Process, PeakPicking.SplitPeaksSeparately, PeakPicking.SeparateTestKeepsSeamPeak, PeakPicking.SplitsAgreeAwayFromSeam |

=== FILE: beat_counts.dfy ===
/**
  The measure numberer: gives every beat its 1-based position in its measure,
  after choosing a start counter from the length of the pickup measure.

  Beat and downbeat times are integer frame indices (seconds = frame / 50), so
  the exact set lookup and the 1e-6 tolerance test of the numbering pass are
  both plain equality here.
 */
module BeatCounts {
  import opened Sequences

  /** What the numberer writes to its diagnostic stream. */
  datatype Diagnostic =
    | Clean             // nothing written
    | DownbeatNotABeat  // error message; every count is left at zero
    | PickupNotShorter  // warning: the pickup is at least as long as the first measure
    | TooFewDownbeats   // warning: fewer than two downbeats

  datatype Numbering = Numbering(counts: seq<int>, diagnostic: Diagnostic)

  /** `std::lower_bound`: the index of the first beat that is not less than `x`. */
  function LowerBound(beats: seq<int>, x: int): (i: nat)
    ensures i <= |beats|
    ensures forall j :: 0 <= j < i ==> beats[j] < x
    ensures i < |beats| ==> beats[i] >= x
    decreases |beats|
  {
    if |beats| == 0 || beats[0] >= x then 0 else 1 + LowerBound(beats[1..], x)
  }

  /** On sorted beats the first index is a partition point, and it finds `x` when `x` is a beat. */
  lemma LowerBoundSorted(beats: seq<int>, x: int)
    requires NonDecreasing(beats)
    ensures forall j :: LowerBound(beats, x) <= j < |beats| ==> beats[j] >= x
    ensures x in beats ==> LowerBound(beats, x) < |beats| && beats[LowerBound(beats, x)] == x
  {
    var i := LowerBound(beats, x);
    if x in beats {
      var m :| 0 <= m < |beats| && beats[m] == x;
      assert i <= m;
      assert beats[i] <= beats[m];
    }
  }

  datatype Start = Start(counter: int, diagnostic: Diagnostic)

  /** The counter value the numbering pass starts from. */
  function PickupStart(beats: seq<int>, downbeats: seq<int>): (s: Start)
    ensures s.counter >= 1
    ensures s.diagnostic != DownbeatNotABeat
  {
    if |downbeats| >= 2 then
      var first := LowerBound(beats, downbeats[0]);
      var second := LowerBound(beats, downbeats[1]);
      var measure := second - first;
      if first < measure then Start(measure - first, Clean) else Start(1, PickupNotShorter)
    else
      Start(1, TooFewDownbeats)
  }

  /** Counter and index of the next expected downbeat in the numbering pass. */
  datatype PassState = PassState(counter: int, next: nat)

  /** One iteration of the numbering pass, for the beat at time `beat`. */
  function Step(downbeats: seq<int>, st: PassState, beat: int): (r: PassState)
    ensures r.next == st.next + 1 <==> st.next < |downbeats| && beat == downbeats[st.next]
    ensures r.next == st.next + 1 ==> r.counter == 1
    ensures r.next == st.next ==> r.counter == st.counter + 1
    ensures r.next == st.next || r.next == st.next + 1
  {
    if st.next < |downbeats| && beat == downbeats[st.next] then PassState(1, st.next + 1)
    else PassState(st.counter + 1, st.next)
  }

  /** The pass state after the first `n` beats. */
  function StateAfter(beats: seq<int>, downbeats: seq<int>, start: int, n: nat): (st: PassState)
    requires n <= |beats|
    ensures st.next <= n && st.next <= |downbeats|
    ensures start >= 1 ==> st.counter >= 1
    decreases n
  {
    if n == 0 then PassState(start, 0)
    else Step(downbeats, StateAfter(beats, downbeats, start, n - 1), beats[n - 1])
  }

  /** The count recorded for each beat: the counter after processing it. */
  function NumberingPass(beats: seq<int>, downbeats: seq<int>, start: int): (counts: seq<int>)
    ensures |counts| == |beats|
  {
    seq(|beats|, i requires 0 <= i < |beats| => StateAfter(beats, downbeats, start, i + 1).counter)
  }

  /** `calculate_beat_counts`: one count per beat. */
  function CalculateBeatCounts(beats: seq<int>, downbeats: seq<int>): (r: Numbering)
    ensures |r.counts| == |beats|
    ensures (|beats| == 0 || |downbeats| == 0) ==> r.counts == Zeros(|beats|) && r.diagnostic == Clean
    ensures |beats| > 0 && !SubsetOf(downbeats, beats) ==>
              r.counts == Zeros(|beats|) && r.diagnostic == DownbeatNotABeat
    ensures |beats| > 0 && |downbeats| > 0 && SubsetOf(downbeats, beats) ==>
              r.diagnostic != DownbeatNotABeat && forall i :: 0 <= i < |beats| ==> r.counts[i] >= 1
  {
    if |beats| == 0 || |downbeats| == 0 then Numbering(Zeros(|beats|), Clean)
    else if !SubsetOf(downbeats, beats) then Numbering(Zeros(|beats|), DownbeatNotABeat)
    else
      var s := PickupStart(beats, downbeats);
      Numbering(NumberingPass(beats, downbeats, s.counter), s.diagnostic)
  }

  /** The numbering loop of `calculate_beat_counts`, as the source writes it. */
  method NumberBeats(beats: seq<int>, downbeats: seq<int>, start: int) returns (counts: seq<int>)
    ensures counts == NumberingPass(beats, downbeats, start)
  {
    var counter := start;
    var next := 0;
    counts := [];
    var i := 0;
    while i < |beats|
      invariant 0 <= i <= |beats|
      invariant PassState(counter, next) == StateAfter(beats, downbeats, start, i)
      invariant |counts| == i
      invariant forall j :: 0 <= j < i ==> counts[j] == StateAfter(beats, downbeats, start, j + 1).counter
    {
      if next < |downbeats| && beats[i] == downbeats[next] {
        counter := 1;
        next := next + 1;
      } else {
        counter := counter + 1;
      }
      counts := counts + [counter];
      i := i + 1;
    }
  }

  // ---------------------------------------------------------------------------
  // Beats before the first downbeat
  // ---------------------------------------------------------------------------

  /** Before the first downbeat the counter only increments. */
  lemma {:induction false} StateBeforeFirstDownbeat(beats: seq<int>, downbeats: seq<int>, start: int, n: nat)
    requires |downbeats| > 0
    requires n <= LowerBound(beats, downbeats[0])
    ensures StateAfter(beats, downbeats, start, n) == PassState(start + n, 0)
    decreases n
  {
    if n > 0 {
      StateBeforeFirstDownbeat(beats, downbeats, start, n - 1);
      assert beats[n - 1] < downbeats[0];
    }
  }

  /** With at least two downbeats and a pickup shorter than the first measure,
      the pickup beats count up to the length of the first measure. */
  lemma PickupShorterThanMeasure(beats: seq<int>, downbeats: seq<int>)
    requires |beats| > 0 && |downbeats| >= 2 && SubsetOf(downbeats, beats)
    requires LowerBound(beats, downbeats[0]) < LowerBound(beats, downbeats[1]) - LowerBound(beats, downbeats[0])
    ensures var first := LowerBound(beats, downbeats[0]);
            var measure := LowerBound(beats, downbeats[1]) - first;
            var r := CalculateBeatCounts(beats, downbeats);
            && r.diagnostic == Clean
            && (forall j :: 0 <= j < first ==> r.counts[j] == measure - first + j + 1)
            && (first >= 1 ==> r.counts[first - 1] == measure)
  {
    var first := LowerBound(beats, downbeats[0]);
    var measure := LowerBound(beats, downbeats[1]) - first;
    var start := measure - first;
    assert PickupStart(beats, downbeats) == Start(start, Clean);
    var counts := NumberingPass(beats, downbeats, start);
    assert CalculateBeatCounts(beats, downbeats) == Numbering(counts, Clean);
    forall j | 0 <= j < first
      ensures counts[j] == start + j + 1
    {
      StateBeforeFirstDownbeat(beats, downbeats, start, j + 1);
    }
  }

  /** With a pickup at least as long as the first measure, or fewer than two
      downbeats, the count starts from 1, so the leading beats are numbered 2, 3, ... */
  lemma PickupFallback(beats: seq<int>, downbeats: seq<int>)
    requires |beats| > 0 && |downbeats| >= 1 && SubsetOf(downbeats, beats)
    requires |downbeats| >= 2 ==>
               LowerBound(beats, downbeats[0]) >= LowerBound(beats, downbeats[1]) - LowerBound(beats, downbeats[0])
    ensures var r := CalculateBeatCounts(beats, downbeats);
            && r.diagnostic == (if |downbeats| >= 2 then PickupNotShorter else TooFewDownbeats)
            && forall j :: 0 <= j < LowerBound(beats, downbeats[0]) ==> r.counts[j] == j + 2
  {
    var s := PickupStart(beats, downbeats);
    assert s == Start(1, if |downbeats| >= 2 then PickupNotShorter else TooFewDownbeats);
    var counts := NumberingPass(beats, downbeats, 1);
    assert CalculateBeatCounts(beats, downbeats) == Numbering(counts, s.diagnostic);
    forall j | 0 <= j < LowerBound(beats, downbeats[0])
      ensures counts[j] == j + 2
    {
      StateBeforeFirstDownbeat(beats, downbeats, 1, j + 1);
    }
  }

  // ---------------------------------------------------------------------------
  // Count 1 exactly at downbeats
  // ---------------------------------------------------------------------------

  /** The pointer `next` always designates the first downbeat not yet passed. */
  ghost predicate Synced(beats: seq<int>, downbeats: seq<int>, n: nat, st: PassState)
    requires n <= |beats|
  {
    && st.next <= |downbeats|
    && (forall j :: 0 <= j < st.next ==> n > 0 && downbeats[j] <= beats[n - 1])
    && (st.next < |downbeats| ==> exists m :: n <= m < |beats| && beats[m] == downbeats[st.next])
  }

  lemma {:induction false} SyncedAfter(beats: seq<int>, downbeats: seq<int>, start: int, n: nat)
    requires StrictlyIncreasing(beats) && StrictlyIncreasing(downbeats) && SubsetOf(downbeats, beats)
    requires n <= |beats|
    ensures Synced(beats, downbeats, n, StateAfter(beats, downbeats, start, n))
    decreases n
  {
    if n == 0 {
      if 0 < |downbeats| {
        assert downbeats[0] in downbeats;
      }
    } else {
      SyncedAfter(beats, downbeats, start, n - 1);
      var prev := StateAfter(beats, downbeats, start, n - 1);
      var st := StateAfter(beats, downbeats, start, n);
      var b := beats[n - 1];
      if prev.next < |downbeats| && b == downbeats[prev.next] {
        assert st.next == prev.next + 1;
        forall j | 0 <= j < st.next
          ensures downbeats[j] <= b
        {
          if j < prev.next {
            assert downbeats[j] < downbeats[prev.next];
          }
        }
        if st.next < |downbeats| {
          assert downbeats[st.next] in downbeats;
          var m :| 0 <= m < |beats| && beats[m] == downbeats[st.next];
          assert downbeats[prev.next] < downbeats[st.next];
        }
      } else {
        assert st.next == prev.next;
        forall j | 0 <= j < st.next
          ensures downbeats[j] <= b
        {
          assert downbeats[j] <= beats[n - 2] < b;
        }
        if st.next < |downbeats| {
          var m :| n - 1 <= m < |beats| && beats[m] == downbeats[st.next];
          assert m != n - 1;
        }
      }
    }
  }

  /** At beat `n`, the beat is a downbeat exactly when it is the next expected one. */
  lemma MatchIsMembership(beats: seq<int>, downbeats: seq<int>, start: int, n: nat)
    requires StrictlyIncreasing(beats) && StrictlyIncreasing(downbeats) && SubsetOf(downbeats, beats)
    requires n < |beats|
    ensures var st := StateAfter(beats, downbeats, start, n);
            beats[n] in downbeats <==> (st.next < |downbeats| && beats[n] == downbeats[st.next])
  {
    SyncedAfter(beats, downbeats, start, n);
    var st := StateAfter(beats, downbeats, start, n);
    if beats[n] in downbeats {
      var j :| 0 <= j < |downbeats| && downbeats[j] == beats[n];
    }
  }

  /** The numbering pass gives count 1 exactly at downbeats; any other beat
      gets one more than its predecessor, and at least 2. */
  lemma CountOneExactlyAtDownbeats(beats: seq<int>, downbeats: seq<int>, start: int)
    requires StrictlyIncreasing(beats) && StrictlyIncreasing(downbeats) && SubsetOf(downbeats, beats)
    requires start >= 1
    ensures var counts := NumberingPass(beats, downbeats, start);
            && (forall i :: 0 <= i < |beats| ==> (counts[i] == 1 <==> beats[i] in downbeats))
            && (forall i :: 0 <= i < |beats| && beats[i] !in downbeats ==> counts[i] >= 2)
            && (forall i :: 0 < i < |beats| && beats[i] !in downbeats ==> counts[i] == counts[i - 1] + 1)
  {
    var counts := NumberingPass(beats, downbeats, start);
    forall i | 0 <= i < |beats|
      ensures counts[i] == 1 <==> beats[i] in downbeats
      ensures beats[i] !in downbeats ==> counts[i] >= 2
      ensures i > 0 && beats[i] !in downbeats ==> counts[i] == counts[i - 1] + 1
    {
      MatchIsMembership(beats, downbeats, start, i);
    }
  }

  /** The same statement for `calculate_beat_counts` when its inputs are consistent. */
  lemma BeatCountsMarkDownbeats(beats: seq<int>, downbeats: seq<int>)
    requires StrictlyIncreasing(beats) && StrictlyIncreasing(downbeats) && SubsetOf(downbeats, beats)
    ensures var counts := CalculateBeatCounts(beats, downbeats).counts;
            && (forall i :: 0 <= i < |beats| ==> (counts[i] == 1 <==> beats[i] in downbeats))
            && (|downbeats| > 0 ==> forall i :: 0 <= i < |beats| && beats[i] !in downbeats ==> counts[i] >= 2)
            && (|downbeats| > 0 ==>
                  forall i :: 0 < i < |beats| && beats[i] !in downbeats ==> counts[i] == counts[i - 1] + 1)
  {
    if |beats| > 0 && |downbeats| > 0 {
      CountOneExactlyAtDownbeats(beats, downbeats, PickupStart(beats, downbeats).counter);
    }
  }

  /** Six beats, one pickup beat and a four-beat measure: counts 4, 1, 2, 3, 4, 1. */
  lemma ExampleWithPickup()
    ensures CalculateBeatCounts([17, 34, 51, 68, 85, 102], [34, 102]) == Numbering([4, 1, 2, 3, 4, 1], Clean)
  {
    var beats := [17, 34, 51, 68, 85, 102];
    var downbeats := [34, 102];
    assert SubsetOf(downbeats, beats) by {
      assert downbeats[0] == beats[1];
      assert downbeats[1] == beats[5];
    }
    assert LowerBound(beats, 34) == 1;
    assert LowerBound(beats, 102) == 5;
    assert PickupStart(beats, downbeats) == Start(3, Clean);
    var counts := NumberingPass(beats, downbeats, 3);
    assert StateAfter(beats, downbeats, 3, 1) == PassState(4, 0);
    assert StateAfter(beats, downbeats, 3, 2) == PassState(1, 1);
    assert StateAfter(beats, downbeats, 3, 3) == PassState(2, 1);
    assert StateAfter(beats, downbeats, 3, 4) == PassState(3, 1);
    assert StateAfter(beats, downbeats, 3, 5) == PassState(4, 1);
    assert StateAfter(beats, downbeats, 3, 6) == PassState(1, 2);
    assert counts == [4, 1, 2, 3, 4, 1];
  }
}

=== FILE: dedup.dfy ===
/**
  Merging of nearby peaks (`deduplicate_peaks`). Peaks are scanned in order;
  a peak joins the current run while it lies within `width` of the run's
  running mean, otherwise the run is closed and a new one starts. Each run
  becomes one output frame: its mean, rounded half away from zero.

  `Runs` is the reference grouping with exact means, `IsGrouping` its
  declarative description, and `DeduplicatePeaks` the running-mean loop of
  the source.
 */
module Dedup {
  import opened Sequences

  /** `std::round`: nearest integer, halves rounded away from zero. */
  function Round(x: real): (r: int)
    ensures x >= 0.0 ==> x - 0.5 < r as real <= x + 0.5
    ensures x < 0.0 ==> x - 0.5 <= r as real < x + 0.5
  {
    if x >= 0.0 then (x + 0.5).Floor else -((-x + 0.5).Floor)
  }

  lemma RoundMonotone(x: real, y: real)
    requires x <= y
    ensures Round(x) <= Round(y)
  {
  }

  lemma RoundOfInteger(n: int)
    ensures Round(n as real) == n
  {
  }

  /** Values at least one apart round to different integers. */
  lemma RoundGap(x: real, y: real)
    requires x + 1.0 <= y
    ensures Round(x) < Round(y)
  {
    RoundMonotone(x + 1.0, y);
    if x < 0.0 && x + 1.0 >= 0.0 {
      if Round(x) == 0 {
        assert x > -0.5;
      }
    }
  }

  /** A peak joins a run when it lies at most `width` above the run's mean
      (stated without division; `JoinsMeansNear` gives the mean form). */
  predicate Joins(run: seq<int>, p: int, width: int)
    requires |run| > 0
  {
    (p - width) * |run| <= Total(run)
  }

  lemma JoinsMeansNear(run: seq<int>, p: int, width: int)
    requires |run| > 0
    ensures Joins(run, p, width) <==> p as real - IntMean(run) <= width as real
  {
    var n := |run| as real;
    var m := IntMean(run);
    assert m * n == Total(run) as real;
    var d := (p - width) as real;
    assert ((p - width) * |run|) as real == d * n;
    if d <= m {
      assert d * n <= m * n;
    } else {
      assert d * n > m * n;
    }
  }

  /** Runs closed so far, and the run still open. */
  datatype Grouping = Grouping(closed: seq<seq<int>>, open: seq<int>)

  /** The grouping after scanning the first `n` peaks. */
  function GroupingAfter(peaks: seq<int>, width: int, n: nat): (g: Grouping)
    requires 1 <= n <= |peaks|
    ensures |g.open| > 0
    ensures forall k :: 0 <= k < |g.closed| ==> |g.closed[k]| > 0
    ensures Flatten(g.closed) + g.open == peaks[..n]
    decreases n
  {
    if n == 1 then Grouping([], [peaks[0]])
    else
      var g := GroupingAfter(peaks, width, n - 1);
      var p := peaks[n - 1];
      assert peaks[..n] == peaks[..n - 1] + [p];
      if Joins(g.open, p, width) then Grouping(g.closed, g.open + [p])
      else Grouping(g.closed + [g.open], [p])
  }

  /** The runs of the whole peak list. */
  function Runs(peaks: seq<int>, width: int): (runs: seq<seq<int>>)
    ensures Flatten(runs) == peaks
    ensures |peaks| == 0 <==> |runs| == 0
  {
    if |peaks| == 0 then []
    else
      var g := GroupingAfter(peaks, width, |peaks|);
      assert peaks[..|peaks|] == peaks;
      g.closed + [g.open]
  }

  // ---------------------------------------------------------------------------
  // Declarative description of a grouping
  // ---------------------------------------------------------------------------

  /** Every member of a run after its first joined the run formed by its predecessors. */
  ghost predicate Coherent(run: seq<int>, width: int) {
    |run| > 0 && forall k :: 1 <= k < |run| ==> Joins(run[..k], run[k], width)
  }

  /** The first member of every run after the first did not join the run before it. */
  ghost predicate Separated(runs: seq<seq<int>>, width: int) {
    forall i :: 0 < i < |runs| ==> Splits(runs[i - 1], runs[i], width)
  }

  /** `next` starts with a peak that does not join `run`. */
  ghost predicate Splits(run: seq<int>, next: seq<int>, width: int) {
    |run| > 0 && |next| > 0 && !Joins(run, next[0], width)
  }

  /** `runs` splits `peaks` into coherent, separated runs. */
  ghost predicate IsGrouping(peaks: seq<int>, width: int, runs: seq<seq<int>>) {
    && Flatten(runs) == peaks
    && AllCoherent(runs, width)
    && Separated(runs, width)
  }

  /** Appending a peak that joins a coherent run keeps it coherent. */
  lemma CoherentExtend(run: seq<int>, p: int, width: int)
    requires Coherent(run, width) && Joins(run, p, width)
    ensures Coherent(run + [p], width)
  {
    var ext := run + [p];
    assert ext[..|run|] == run;
    forall k | 1 <= k < |ext|
      ensures Joins(ext[..k], ext[k], width)
    {
      if k < |run| {
        assert ext[..k] == run[..k];
      }
    }
  }

  /** A new run whose first peak does not join the last run keeps the split separated. */
  lemma SeparatedAppend(runs: seq<seq<int>>, run: seq<int>, width: int)
    requires Separated(runs, width) && |runs| > 0 && |runs[|runs| - 1]| > 0 && |run| > 0
    requires !Joins(runs[|runs| - 1], run[0], width)
    ensures Separated(runs + [run], width)
  {
    var ext := runs + [run];
    forall i | 0 < i < |ext|
      ensures Splits(ext[i - 1], ext[i], width)
    {
      if i < |runs| {
        assert ext[i - 1] == runs[i - 1] && ext[i] == runs[i];
      }
    }
  }

  /** Replacing the last run by one with the same first peak keeps the split separated. */
  lemma SeparatedReplaceLast(runs: seq<seq<int>>, run: seq<int>, width: int)
    requires Separated(runs, width) && |runs| > 0 && |runs[|runs| - 1]| > 0
    requires |run| > 0 && run[0] == runs[|runs| - 1][0]
    ensures Separated(runs[..|runs| - 1] + [run], width)
  {
    var ext := runs[..|runs| - 1] + [run];
    forall i | 0 < i < |ext|
      ensures Splits(ext[i - 1], ext[i], width)
    {
      assert ext[i - 1] == runs[i - 1];
      if i < |runs| - 1 {
        assert ext[i] == runs[i];
      }
    }
  }

  /** Every run of the split is coherent. */
  ghost predicate AllCoherent(runs: seq<seq<int>>, width: int) {
    forall i :: 0 <= i < |runs| ==> Coherent(runs[i], width)
  }

  /** A peak that joins the open run keeps the runs coherent and separated. */
  lemma JoinStep(closed: seq<seq<int>>, open: seq<int>, p: int, width: int)
    requires AllCoherent(closed + [open], width) && Separated(closed + [open], width)
    requires |open| > 0 && Joins(open, p, width)
    ensures AllCoherent(closed + [open + [p]], width) && Separated(closed + [open + [p]], width)
  {
    var prev := closed + [open];
    assert prev[|prev| - 1] == open;
    CoherentExtend(open, p, width);
    assert prev[..|prev| - 1] == closed;
    SeparatedReplaceLast(prev, open + [p], width);
    var next := closed + [open + [p]];
    forall i | 0 <= i < |next|
      ensures Coherent(next[i], width)
    {
      if i < |closed| {
        assert next[i] == prev[i];
      }
    }
  }

  /** A peak that does not join the open run starts a new run; the runs stay
      coherent and separated. */
  lemma SplitStep(closed: seq<seq<int>>, open: seq<int>, p: int, width: int)
    requires AllCoherent(closed + [open], width) && Separated(closed + [open], width)
    requires |open| > 0 && !Joins(open, p, width)
    ensures AllCoherent(closed + [open] + [[p]], width) && Separated(closed + [open] + [[p]], width)
  {
    var prev := closed + [open];
    assert prev[|prev| - 1] == open;
    assert Coherent([p], width);
    SeparatedAppend(prev, [p], width);
    var next := prev + [[p]];
    forall i | 0 <= i < |next|
      ensures Coherent(next[i], width)
    {
      if i < |prev| {
        assert next[i] == prev[i];
      }
    }
  }

  /** One scanned peak keeps the runs coherent and separated. */
  lemma GroupingStep(peaks: seq<int>, width: int, n: nat)
    requires 2 <= n <= |peaks|
    requires var h := GroupingAfter(peaks, width, n - 1);
             AllCoherent(h.closed + [h.open], width) && Separated(h.closed + [h.open], width)
    ensures var g := GroupingAfter(peaks, width, n);
            AllCoherent(g.closed + [g.open], width) && Separated(g.closed + [g.open], width)
  {
    var h := GroupingAfter(peaks, width, n - 1);
    var p := peaks[n - 1];
    if Joins(h.open, p, width) {
      assert GroupingAfter(peaks, width, n) == Grouping(h.closed, h.open + [p]);
      JoinStep(h.closed, h.open, p, width);
    } else {
      assert GroupingAfter(peaks, width, n) == Grouping(h.closed + [h.open], [p]);
      SplitStep(h.closed, h.open, p, width);
    }
  }

  lemma {:induction false} GroupingAfterIsGrouping(peaks: seq<int>, width: int, n: nat)
    requires 1 <= n <= |peaks|
    ensures var g := GroupingAfter(peaks, width, n);
            AllCoherent(g.closed + [g.open], width) && Separated(g.closed + [g.open], width)
    decreases n
  {
    if n == 1 {
      assert GroupingAfter(peaks, width, n) == Grouping([], [peaks[0]]);
      assert Coherent([peaks[0]], width);
    } else {
      GroupingAfterIsGrouping(peaks, width, n - 1);
      GroupingStep(peaks, width, n);
    }
  }

  /** A single peak forms a single run. */
  lemma RunsOfOnePeak(x: int, width: int)
    ensures Runs([x], width) == [[x]]
  {
    assert GroupingAfter([x], width, 1) == Grouping([], [x]);
    assert [x][..1] == [x];
  }

  lemma RunsIsGrouping(peaks: seq<int>, width: int)
    ensures IsGrouping(peaks, width, Runs(peaks, width))
  {
    if |peaks| > 0 {
      GroupingAfterIsGrouping(peaks, width, |peaks|);
    }
  }

  lemma FlattenOfEmptyRuns(runs: seq<seq<int>>)
    requires Flatten(runs) == []
    requires forall i :: 0 <= i < |runs| ==> |runs[i]| > 0
    ensures runs == []
  {
  }

  /** A prefix of a coherent run is coherent. */
  lemma CoherentPrefix(run: seq<int>, width: int, m: nat)
    requires Coherent(run, width) && 1 <= m <= |run|
    ensures Coherent(run[..m], width)
  {
    forall k | 1 <= k < m
      ensures Joins(run[..m][..k], run[..m][k], width)
    {
      assert run[..m][..k] == run[..k];
    }
  }

  /** Dropping a final one-peak run leaves a grouping of the other peaks,
      and that peak did not join the run before it. */
  lemma DropSingletonRun(peaks: seq<int>, width: int, runs: seq<seq<int>>)
    requires IsGrouping(peaks, width, runs) && |runs| > 0 && |runs[|runs| - 1]| == 1
    requires |peaks| >= 2
    ensures var front := runs[..|runs| - 1];
            && |front| > 0
            && IsGrouping(peaks[..|peaks| - 1], width, front)
            && runs[|runs| - 1] == [peaks[|peaks| - 1]]
            && !Joins(front[|front| - 1], peaks[|peaks| - 1], width)
  {
    var front := runs[..|runs| - 1];
    var last := runs[|runs| - 1];
    assert Flatten(runs) == Flatten(front) + last;
    assert Flatten(front) == peaks[..|peaks| - 1];
    assert forall i :: 0 <= i < |front| ==> front[i] == runs[i];
    assert Separated(front, width);
    assert Splits(runs[|runs| - 2], runs[|runs| - 1], width);
  }

  /** Removing the final peak from a final run of two or more peaks leaves a
      grouping of the other peaks, and that peak joined the shortened run. */
  lemma ShortenLastRun(peaks: seq<int>, width: int, runs: seq<seq<int>>)
    requires IsGrouping(peaks, width, runs) && |runs| > 0 && |runs[|runs| - 1]| >= 2
    ensures var last := runs[|runs| - 1];
            var shortened := last[..|last| - 1];
            && IsGrouping(peaks[..|peaks| - 1], width, runs[..|runs| - 1] + [shortened])
            && last == shortened + [peaks[|peaks| - 1]]
            && Joins(shortened, peaks[|peaks| - 1], width)
  {
    var front := runs[..|runs| - 1];
    var last := runs[|runs| - 1];
    var shortened := last[..|last| - 1];
    var runs' := front + [shortened];
    assert Flatten(runs) == Flatten(front) + last;
    assert last == shortened + [last[|last| - 1]];
    assert Flatten(runs') == Flatten(front) + shortened;
    assert Coherent(last, width);
    CoherentPrefix(last, width, |last| - 1);
    assert forall i :: 0 <= i < |front| ==> runs'[i] == runs[i];
    assert AllCoherent(runs', width);
    SeparatedReplaceLast(runs, shortened, width);
  }

  /** A grouping of a single peak is the one run holding it. */
  lemma GroupingOfOnePeak(peaks: seq<int>, width: int, runs: seq<seq<int>>)
    requires IsGrouping(peaks, width, runs) && |peaks| == 1
    ensures runs == Runs(peaks, width)
  {
    assert |runs| > 0;
    var front := runs[..|runs| - 1];
    var last := runs[|runs| - 1];
    assert Flatten(runs) == Flatten(front) + last;
    assert Coherent(last, width);
    assert |runs| == 1;
    assert Flatten(runs) == last;
    assert runs == [peaks];
    var g := GroupingAfter(peaks, width, |peaks|);
    assert g.closed == [] && g.open == peaks;
  }

  /** The scan closes the open run exactly where a grouping starts a one-peak run. */
  lemma UniqueWithSingletonLast(peaks: seq<int>, width: int, runs: seq<seq<int>>)
    requires IsGrouping(peaks, width, runs) && |runs| > 0 && |runs[|runs| - 1]| == 1
    requires |peaks| >= 2
    requires runs[..|runs| - 1] == Runs(peaks[..|peaks| - 1], width)
    ensures runs == Runs(peaks, width)
  {
    var n := |peaks|;
    DropSingletonRun(peaks, width, runs);
    RunsAgree(peaks, width, n - 1);
    var h := GroupingAfter(peaks, width, n - 1);
    assert runs == h.closed + [h.open] + [[peaks[n - 1]]];
  }

  /** The scan extends the open run exactly where a grouping's last run has two or more peaks. */
  lemma UniqueWithLongerLast(peaks: seq<int>, width: int, runs: seq<seq<int>>)
    requires IsGrouping(peaks, width, runs) && |runs| > 0 && |runs[|runs| - 1]| >= 2
    requires |peaks| >= 2
    requires var last := runs[|runs| - 1];
             runs[..|runs| - 1] + [last[..|last| - 1]] == Runs(peaks[..|peaks| - 1], width)
    ensures runs == Runs(peaks, width)
  {
    var n := |peaks|;
    var last := runs[|runs| - 1];
    ShortenLastRun(peaks, width, runs);
    RunsAgree(peaks, width, n - 1);
    var h := GroupingAfter(peaks, width, n - 1);
    assert h.closed == runs[..|runs| - 1] && h.open == last[..|last| - 1];
    assert runs == h.closed + [h.open + [peaks[n - 1]]];
  }

  /** The grouping is determined by the peaks: any coherent, separated split is the scan's. */
  lemma {:induction false} GroupingIsUnique(peaks: seq<int>, width: int, runs: seq<seq<int>>)
    requires IsGrouping(peaks, width, runs)
    ensures runs == Runs(peaks, width)
    decreases |peaks|
  {
    var n := |peaks|;
    if n == 0 {
      FlattenOfEmptyRuns(runs);
    } else if n == 1 {
      GroupingOfOnePeak(peaks, width, runs);
    } else {
      assert |runs| > 0;
      var last := runs[|runs| - 1];
      assert Coherent(last, width);
      if |last| == 1 {
        DropSingletonRun(peaks, width, runs);
        GroupingIsUnique(peaks[..n - 1], width, runs[..|runs| - 1]);
        UniqueWithSingletonLast(peaks, width, runs);
      } else {
        ShortenLastRun(peaks, width, runs);
        GroupingIsUnique(peaks[..n - 1], width, runs[..|runs| - 1] + [last[..|last| - 1]]);
        UniqueWithLongerLast(peaks, width, runs);
      }
    }
  }

  /** Scanning a prefix of the peaks gives the grouping of that prefix. */
  lemma {:induction false} GroupingOfPrefix(peaks: seq<int>, width: int, n: nat, m: nat)
    requires 1 <= m <= n <= |peaks|
    ensures GroupingAfter(peaks[..n], width, m) == GroupingAfter(peaks, width, m)
    decreases m
  {
    if m > 1 {
      GroupingOfPrefix(peaks, width, n, m - 1);
    }
  }

  lemma RunsAgree(peaks: seq<int>, width: int, n: nat)
    requires 1 <= n <= |peaks|
    ensures var g := GroupingAfter(peaks, width, n);
            Runs(peaks[..n], width) == g.closed + [g.open]
  {
    GroupingOfPrefix(peaks, width, n, n);
  }

  // ---------------------------------------------------------------------------
  // The output
  // ---------------------------------------------------------------------------

  /** The rounded mean of each run. */
  function Rounded(runs: seq<seq<int>>): (r: seq<int>)
    requires forall i :: 0 <= i < |runs| ==> |runs[i]| > 0
    ensures |r| == |runs|
    ensures forall i :: 0 <= i < |runs| ==> r[i] == Round(IntMean(runs[i]))
  {
    seq(|runs|, i requires 0 <= i < |runs| => Round(IntMean(runs[i])))
  }

  lemma RoundedAppend(runs: seq<seq<int>>, run: seq<int>)
    requires forall i :: 0 <= i < |runs| ==> |runs[i]| > 0
    requires |run| > 0
    ensures Rounded(runs + [run]) == Rounded(runs) + [Round(IntMean(run))]
  {
    var ext := runs + [run];
    assert forall i :: 0 <= i < |runs| ==> ext[i] == runs[i];
  }

  /** Every run of the scan is non-empty. */
  lemma RunsNonEmpty(peaks: seq<int>, width: int)
    ensures forall i :: 0 <= i < |Runs(peaks, width)| ==> |Runs(peaks, width)[i]| > 0
  {
    var runs := Runs(peaks, width);
    RunsIsGrouping(peaks, width);
    assert forall i :: 0 <= i < |runs| ==> Coherent(runs[i], width);
  }

  /** `deduplicate_peaks`: one rounded mean per run. */
  function Deduplicate(peaks: seq<int>, width: int): (r: seq<int>)
    ensures |r| <= |peaks|
    ensures |peaks| == 0 <==> |r| == 0
  {
    RunsNonEmpty(peaks, width);
    FlattenLength(Runs(peaks, width));
    Rounded(Runs(peaks, width))
  }

  /** The output is the rounded mean of each run of any coherent, separated
      split of the peaks. */
  lemma DeduplicateIsRoundedMeans(peaks: seq<int>, width: int, runs: seq<seq<int>>)
    requires IsGrouping(peaks, width, runs)
    ensures |Deduplicate(peaks, width)| == |runs|
    ensures forall i :: 0 <= i < |runs| ==> |runs[i]| > 0 && Deduplicate(peaks, width)[i] == Round(IntMean(runs[i]))
  {
    GroupingIsUnique(peaks, width, runs);
    RunsNonEmpty(peaks, width);
  }

  lemma {:induction false} FlattenLength(runs: seq<seq<int>>)
    requires forall i :: 0 <= i < |runs| ==> |runs[i]| > 0
    ensures |runs| <= |Flatten(runs)|
    decreases |runs|
  {
    if |runs| > 0 {
      FlattenLength(runs[..|runs| - 1]);
    }
  }

  /** The mean after appending `x`, written as the source's running update. */
  lemma RunningMean(run: seq<int>, x: int)
    requires |run| > 0
    ensures IntMean(run + [x]) == IntMean(run) + (x as real - IntMean(run)) / (|run| + 1) as real
  {
    assert (run + [x])[..|run|] == run;
    var total := Total(run) as real;
    var n := |run| as real;
    var m := total / n;
    assert total == m * n;
    assert Total(run + [x]) as real == total + x as real;
    var lhs := (total + x as real) / (n + 1.0);
    var rhs := m + (x as real - m) / (n + 1.0);
    assert rhs * (n + 1.0) == m * (n + 1.0) + (x as real - m);
    assert lhs * (n + 1.0) == total + x as real;
  }

  lemma IntMeanSingleton(x: int)
    ensures IntMean([x]) == x as real
  {
    assert [x][..0] == [];
    assert Total([x]) == x;
  }

  /** The loop state of `deduplicate_peaks` after `i` peaks: the emitted
      frames round the closed runs, `p` is the open run's mean and `c` its size. */
  ghost predicate Scanned(peaks: seq<int>, width: int, i: nat, result: seq<int>, p: real, c: int)
    requires 1 <= i <= |peaks|
  {
    var g := GroupingAfter(peaks, width, i);
    result == Rounded(g.closed) && p == IntMean(g.open) && c == |g.open|
  }

  /** The loop state after the first peak: nothing emitted, the open run is that peak. */
  lemma ScanStart(peaks: seq<int>, width: int)
    requires |peaks| >= 1
    ensures Scanned(peaks, width, 1, [], peaks[0] as real, 1)
  {
    assert GroupingAfter(peaks, width, 1) == Grouping([], [peaks[0]]);
    IntMeanSingleton(peaks[0]);
  }

  /** One scan step when the next peak lies within `width` of the running mean. */
  lemma ScanJoin(peaks: seq<int>, width: int, i: nat, result: seq<int>, p: real, c: int)
    requires 1 <= i < |peaks| && Scanned(peaks, width, i, result, p, c)
    requires peaks[i] as real - p <= width as real
    ensures Scanned(peaks, width, i + 1, result, p + (peaks[i] as real - p) / (c + 1) as real, c + 1)
  {
    var g := GroupingAfter(peaks, width, i);
    JoinsMeansNear(g.open, peaks[i], width);
    RunningMean(g.open, peaks[i]);
  }

  /** One scan step when the next peak starts a new run. */
  lemma ScanClose(peaks: seq<int>, width: int, i: nat, result: seq<int>, p: real, c: int)
    requires 1 <= i < |peaks| && Scanned(peaks, width, i, result, p, c)
    requires peaks[i] as real - p > width as real
    ensures Scanned(peaks, width, i + 1, result + [Round(p)], peaks[i] as real, 1)
  {
    var g := GroupingAfter(peaks, width, i);
    JoinsMeansNear(g.open, peaks[i], width);
    IntMeanSingleton(peaks[i]);
    RoundedAppend(g.closed, g.open);
  }

  /** After the last peak, emitting the open run completes the output. */
  lemma ScanDone(peaks: seq<int>, width: int, result: seq<int>, p: real, c: int)
    requires |peaks| >= 1 && Scanned(peaks, width, |peaks|, result, p, c)
    ensures result + [Round(p)] == Deduplicate(peaks, width)
  {
    var g := GroupingAfter(peaks, width, |peaks|);
    RoundedAppend(g.closed, g.open);
  }

  /** The loop of `deduplicate_peaks`, with its running mean `p` and count `c`. */
  method DeduplicatePeaks(peaks: seq<int>, width: int) returns (result: seq<int>)
    ensures result == Deduplicate(peaks, width)
  {
    result := [];
    if |peaks| == 0 {
      return;
    }
    var p: real := peaks[0] as real;
    var c := 1;
    ScanStart(peaks, width);
    var i := 1;
    while i < |peaks|
      invariant 1 <= i <= |peaks|
      invariant Scanned(peaks, width, i, result, p, c)
    {
      var p2 := peaks[i];
      if p2 as real - p <= width as real {
        ScanJoin(peaks, width, i, result, p, c);
        c := c + 1;
        p := p + (p2 as real - p) / c as real;
      } else {
        ScanClose(peaks, width, i, result, p, c);
        result := result + [Round(p)];
        p := p2 as real;
        c := 1;
      }
      i := i + 1;
    }
    ScanDone(peaks, width, result, p, c);
    result := result + [Round(p)];
  }

  // ---------------------------------------------------------------------------
  // Ordering of the output
  // ---------------------------------------------------------------------------

  /** Both parts of a strictly increasing concatenation are strictly increasing. */
  lemma IncreasingParts(f: seq<int>, last: seq<int>)
    requires StrictlyIncreasing(f + last)
    ensures StrictlyIncreasing(f) && StrictlyIncreasing(last)
  {
    var c := f + last;
    forall a, b | 0 <= a < b < |f|
      ensures f[a] < f[b]
    {
      assert f[a] == c[a] && f[b] == c[b];
    }
    forall a, b | 0 <= a < b < |last|
      ensures last[a] < last[b]
    {
      assert last[a] == c[|f| + a] && last[b] == c[|f| + b];
    }
  }

  lemma {:induction false} RunsOfIncreasingAreIncreasing(runs: seq<seq<int>>)
    requires StrictlyIncreasing(Flatten(runs))
    ensures forall i :: 0 <= i < |runs| ==> StrictlyIncreasing(runs[i])
    decreases |runs|
  {
    if |runs| > 0 {
      var front := runs[..|runs| - 1];
      var last := runs[|runs| - 1];
      assert Flatten(runs) == Flatten(front) + last;
      IncreasingParts(Flatten(front), last);
      RunsOfIncreasingAreIncreasing(front);
      forall i | 0 <= i < |runs|
        ensures StrictlyIncreasing(runs[i])
      {
        if i < |front| {
          assert runs[i] == front[i];
        }
      }
    }
  }

  lemma {:induction false} MembersOfRunsArePeaks(runs: seq<seq<int>>, i: nat, x: int)
    requires i < |runs| && x in runs[i]
    ensures x in Flatten(runs)
    decreases |runs|
  {
    var front := runs[..|runs| - 1];
    assert Flatten(runs) == Flatten(front) + runs[|runs| - 1];
    if i < |runs| - 1 {
      assert runs[i] == front[i];
      MembersOfRunsArePeaks(front, i, x);
    }
  }

  /** For strictly increasing peaks, each run's mean lies between the run's
      first peak and the last peak overall, and its rounding between the
      first and last peak overall. */
  lemma RunMeanWithinPeaks(peaks: seq<int>, width: int, i: nat)
    requires StrictlyIncreasing(peaks)
    requires i < |Runs(peaks, width)|
    ensures var run := Runs(peaks, width)[i];
            && |run| > 0
            && run[0] as real <= IntMean(run)
            && peaks[0] <= Round(IntMean(run)) <= peaks[|peaks| - 1]
  {
    var runs := Runs(peaks, width);
    RunsNonEmpty(peaks, width);
    RunsOfIncreasingAreIncreasing(runs);
    var run := runs[i];
    assert StrictlyIncreasing(run);
    forall k | 0 <= k < |run|
      ensures run[0] <= run[k] && peaks[0] <= run[k] <= peaks[|peaks| - 1]
    {
      assert run[k] in run;
      MembersOfRunsArePeaks(runs, i, run[k]);
      var m :| 0 <= m < |peaks| && peaks[m] == run[k];
    }
    IntMeanBounds(run, run[0], peaks[|peaks| - 1]);
    IntMeanBounds(run, peaks[0], peaks[|peaks| - 1]);
    RoundMonotone(peaks[0] as real, IntMean(run));
    RoundMonotone(IntMean(run), peaks[|peaks| - 1] as real);
    RoundOfInteger(peaks[0]);
    RoundOfInteger(peaks[|peaks| - 1]);
  }

  /** For strictly increasing peaks and width at least 1, the output is strictly
      increasing and stays within the range of the peaks. */
  lemma DeduplicateIncreasing(peaks: seq<int>, width: int)
    requires StrictlyIncreasing(peaks) && width >= 1
    ensures StrictlyIncreasing(Deduplicate(peaks, width))
    ensures forall i :: 0 <= i < |Deduplicate(peaks, width)| ==>
              peaks[0] <= Deduplicate(peaks, width)[i] <= peaks[|peaks| - 1]
  {
    var r := Deduplicate(peaks, width);
    var runs := Runs(peaks, width);
    RunsNonEmpty(peaks, width);
    assert r == Rounded(runs);
    forall i | 0 <= i < |r|
      ensures peaks[0] <= r[i] <= peaks[|peaks| - 1]
    {
      RunMeanWithinPeaks(peaks, width, i);
    }
    forall i | 0 < i < |r|
      ensures r[i - 1] < r[i]
    {
      RunsIsGrouping(peaks, width);
      assert Splits(runs[i - 1], runs[i], width);
      JoinsMeansNear(runs[i - 1], runs[i][0], width);
      RunMeanWithinPeaks(peaks, width, i);
      RoundGap(IntMean(runs[i - 1]), IntMean(runs[i]));
    }
    AdjacentIncreasingIsStrict(r);
  }
}

=== FILE: inference.dfy ===
/**
  The chunk-and-stitch protocol around the beat tracking network
  (`InferenceProcessor`): a spectrogram is cut into overlapping chunks with
  zero padding at the ends, every chunk is scored on its own, and the chunk
  predictions are written back without their borders, the earliest chunk
  winning where chunks overlap. The network itself is a function parameter.
 */
module Inference {
  import opened Sequences

  type Row = seq<real>
  type Spectrogram = seq<Row>

  /** Beat and downbeat logit of one output frame of the network. */
  datatype FrameLogits = FrameLogits(beat: real, downbeat: real)

  /** The two logit curves of a whole piece. */
  datatype Logits = Logits(beat: seq<real>, downbeat: seq<real>)

  datatype Option<T> = None | Some(value: T)

  /** Chunk length and border length, in frames. */
  const ChunkSize: int := 1500
  const BorderSize: int := 6

  /** Value of a frame that no chunk wrote. */
  const Sentinel: real := -1000.0

  function Min(a: int, b: int): int {
    if a <= b then a else b
  }

  function Max(a: int, b: int): int {
    if a >= b then a else b
  }

  function ZeroRow(n: nat): (r: Row)
    ensures |r| == n
    ensures forall j :: 0 <= j < n ==> r[j] == 0.0
  {
    seq(n, _ => 0.0)
  }

  /** Number of mel bins per row, taken from the first row. */
  function Width(spect: Spectrogram): nat {
    if |spect| == 0 then 0 else |spect[0]|
  }

  /** All rows have the width of the first. */
  predicate Rectangular(spect: Spectrogram) {
    forall i :: 0 <= i < |spect| ==> |spect[i]| == Width(spect)
  }

  /** Padding copies the first Width(spect) entries of every row, so no row may be narrower. */
  predicate Paddable(spect: Spectrogram) {
    |spect| > 0 && forall i :: 0 <= i < |spect| ==> |spect[i]| >= Width(spect)
  }

  /** `zeropad`: `left` zero rows before and `right` zero rows after; without
      padding the input comes back as it is. */
  function Zeropad(spect: Spectrogram, left: nat, right: nat): (r: Spectrogram)
    requires (left == 0 && right == 0) || Paddable(spect)
    ensures |r| == |spect| + left + right
    ensures left == 0 && right == 0 ==> r == spect
    ensures left > 0 || right > 0 ==>
              forall i :: 0 <= i < |spect| ==> r[left + i] == spect[i][..Width(spect)]
    ensures left > 0 || right > 0 ==>
              forall i :: 0 <= i < |r| && !(left <= i < left + |spect|) ==> r[i] == ZeroRow(Width(spect))
  {
    if left == 0 && right == 0 then spect
    else
      var w := Width(spect);
      seq(|spect| + left + right, i requires 0 <= i < |spect| + left + right =>
        if left <= i < left + |spect| then spect[i - left][..w] else ZeroRow(w))
  }

  /** Removing the padding of a rectangular spectrogram gives it back. */
  lemma UnpadZeropad(spect: Spectrogram, left: nat, right: nat)
    requires Rectangular(spect)
    requires (left == 0 && right == 0) || |spect| > 0
    ensures Zeropad(spect, left, right)[left .. left + |spect|] == spect
  {
    var r := Zeropad(spect, left, right);
    if left > 0 || right > 0 {
      forall i | 0 <= i < |spect|
        ensures r[left + i] == spect[i]
      {
        assert spect[i][..Width(spect)] == spect[i];
      }
    }
  }

  // ---------------------------------------------------------------------------
  // Chunk starts
  // ---------------------------------------------------------------------------

  /** start, start + step, ... while below `limit`. */
  function Grid(start: int, limit: int, step: int): (g: seq<int>)
    requires step > 0
    ensures |g| == 0 <==> start >= limit
    ensures |g| > 0 ==> g[0] == start && g[|g| - 1] < limit <= g[|g| - 1] + step
    ensures forall k :: 0 < k < |g| ==> g[k] == g[k - 1] + step
    ensures forall k :: 0 <= k < |g| ==> start <= g[k] < limit
    decreases limit - start
  {
    if start < limit then [start] + Grid(start + step, limit, step) else []
  }

  /** The start offsets of `split_piece`: a grid from -border with step
      chunk - 2 * border, whose last entry is moved back so that the last chunk
      ends `border` frames past the end when the piece is longer than one step. */
  function Starts(len: nat, chunk: int, border: int): (s: seq<int>)
    requires 0 <= border && 2 * border < chunk
    ensures |s| == 0 <==> len == 0
    ensures |s| > 0 ==> s[0] == -border
    ensures forall k :: 0 <= k < |s| ==> -border <= s[k] < len - border
    ensures forall k :: 0 < k < |s| ==> s[k - 1] < s[k] <= s[k - 1] + (chunk - 2 * border)
    ensures |s| > 0 ==> s[|s| - 1] + chunk - border >= len
    ensures len > chunk - 2 * border ==> |s| >= 2 && s[|s| - 1] == len - (chunk - border)
  {
    var step := chunk - 2 * border;
    var g := Grid(-border, len - border, step);
    if len > step then
      assert |g| >= 2 by {
        assert g[0] + step < len - border;
      }
      g[..|g| - 1] + [len - (chunk - border)]
    else g
  }

  lemma StartsIncreasing(len: nat, chunk: int, border: int)
    requires 0 <= border && 2 * border < chunk
    ensures StrictlyIncreasing(Starts(len, chunk, border))
  {
    var s := Starts(len, chunk, border);
    assert AdjacentIncreasing(s);
    AdjacentIncreasingIsStrict(s);
  }

  /** The start loop of `split_piece`, repeated in `process_spectrogram`. */
  method ComputeStarts(len: nat, chunk: int, border: int) returns (starts: seq<int>)
    requires 0 <= border && 2 * border < chunk
    ensures starts == Starts(len, chunk, border)
  {
    var step := chunk - 2 * border;
    ghost var grid := Grid(-border, len - border, step);
    starts := [];
    var start := -border;
    while start < len - border
      invariant |starts| <= |grid| && starts == grid[..|starts|]
      invariant (|starts| < |grid| && start == grid[|starts|]) || (|starts| == |grid| && start >= len - border)
      decreases len - border - start
    {
      assert grid[..|starts| + 1] == starts + [start];
      starts := starts + [start];
      start := start + step;
    }
    assert starts == grid;
    if len > step {
      starts := starts[..|starts| - 1] + [len - (chunk - border)];
    }
  }

  // ---------------------------------------------------------------------------
  // Chunks
  // ---------------------------------------------------------------------------

  /** The rows of `split_piece` for `start`, before zero padding: the part of
      start .. start + chunk - 1 inside the spectrogram. */
  function Overlap(spect: Spectrogram, start: int, chunk: int): (current: Spectrogram)
    requires Rectangular(spect) && |spect| > 0
    requires 0 < chunk && -chunk < start < |spect|
    ensures |current| > 0 && Rectangular(current) && Width(current) == Width(spect)
  {
    spect[Max(0, start) .. Min(start + chunk, |spect|)]
  }

  /** Row j of the padded chunk at `start`. */
  lemma ChunkRow(spect: Spectrogram, start: int, chunk: int, border: int, j: int)
    requires Rectangular(spect) && |spect| > 0
    requires 0 <= border && 0 < chunk && -chunk < start < |spect|
    requires 0 <= j < |Zeropad(Overlap(spect, start, chunk), Max(0, -start), Max(0, Min(border, start + chunk - |spect|)))|
    ensures Zeropad(Overlap(spect, start, chunk), Max(0, -start), Max(0, Min(border, start + chunk - |spect|)))[j] ==
              if 0 <= start + j < |spect| then spect[start + j] else ZeroRow(Width(spect))
  {
    var current := Overlap(spect, start, chunk);
    var left := Max(0, -start);
    var right := Max(0, Min(border, start + chunk - |spect|));
    var c := Zeropad(current, left, right);
    var lo := Max(0, start);
    assert lo == start + left;
    assert |current| == Min(start + chunk, |spect|) - lo;
    if left <= j < left + |current| {
      assert current[j - left] == spect[start + j];
      assert |current[j - left]| == Width(current);
      assert c[j] == current[j - left];
    } else {
      assert !(0 <= start + j < |spect|);
      assert c[j] == ZeroRow(Width(current));
    }
  }

  /** The chunk of `split_piece` starting at `start`: rows start .. start + chunk - 1,
      rows before the spectrogram zero, and at most `border` zero rows after it. */
  function ChunkAt(spect: Spectrogram, start: int, chunk: int, border: int): (c: Spectrogram)
    requires Rectangular(spect) && |spect| > 0
    requires 0 <= border && 0 < chunk && -chunk < start < |spect|
    ensures |c| <= chunk
    ensures start + |c| == Min(start + chunk, |spect| + border)
    ensures forall j :: 0 <= j < |c| ==>
              c[j] == if 0 <= start + j < |spect| then spect[start + j] else ZeroRow(Width(spect))
  {
    var c := Zeropad(Overlap(spect, start, chunk), Max(0, -start), Max(0, Min(border, start + chunk - |spect|)));
    forall j | 0 <= j < |c|
      ensures c[j] == if 0 <= start + j < |spect| then spect[start + j] else ZeroRow(Width(spect))
    {
      ChunkRow(spect, start, chunk, border, j);
    }
    c
  }

  /** `split_piece`: one chunk per start. */
  function SplitPiece(spect: Spectrogram, chunk: int, border: int): (chunks: seq<Spectrogram>)
    requires Rectangular(spect)
    requires 0 <= border && 2 * border < chunk
    ensures |chunks| == |Starts(|spect|, chunk, border)|
    ensures forall k :: 0 <= k < |chunks| ==>
              var s := Starts(|spect|, chunk, border)[k];
              && |chunks[k]| <= chunk
              && s + |chunks[k]| == Min(s + chunk, |spect| + border)
              && forall j :: 0 <= j < |chunks[k]| ==>
                   chunks[k][j] == if 0 <= s + j < |spect| then spect[s + j] else ZeroRow(Width(spect))
  {
    var starts := Starts(|spect|, chunk, border);
    seq(|starts|, k requires 0 <= k < |starts| => ChunkAt(spect, starts[k], chunk, border))
  }

  /** Every chunk is longer than its two borders, so aggregation always takes
      the branch that drops the borders. */
  lemma ChunksLongerThanBorders(spect: Spectrogram, chunk: int, border: int, k: nat)
    requires Rectangular(spect)
    requires 0 <= border && 2 * border < chunk
    requires k < |SplitPiece(spect, chunk, border)|
    ensures |SplitPiece(spect, chunk, border)[k]| > 2 * border
  {
  }

  // ---------------------------------------------------------------------------
  // Aggregation
  // ---------------------------------------------------------------------------

  /** A chunk prediction of length n placed at `start` writes frame t: the
      whole prediction when shorter than two borders, otherwise all but the
      borders, and never outside [0, full). */
  predicate Writes(start: int, n: int, border: int, full: int, t: int) {
    && 0 <= t < full
    && if n < 2 * border then start <= t < start + n else start + border <= t < start + n - border
  }

  /** One pass of the aggregation loop: a chunk shorter than two borders
      overwrites every frame it covers, a longer one only the frames between
      its borders; every other frame keeps its value. */
  function ApplyChunk(out: seq<FrameLogits>, pred: seq<FrameLogits>, start: int, border: int): (r: seq<FrameLogits>)
    requires 0 <= border
    ensures |r| == |out|
    ensures forall t :: 0 <= t < |out| && (t < start || start + |pred| <= t) ==> r[t] == out[t]
    ensures |pred| < 2 * border ==>
              forall t :: 0 <= t < |out| && start <= t < start + |pred| ==> r[t] == pred[t - start]
    ensures |pred| >= 2 * border ==>
              forall t :: 0 <= t < |out| && start + border <= t < start + |pred| - border ==> r[t] == pred[t - start]
    ensures |pred| >= 2 * border ==>
              forall t :: 0 <= t < |out| && (start <= t < start + border || start + |pred| - border <= t < start + |pred|)
                          ==> r[t] == out[t]
  {
    seq(|out|, t requires 0 <= t < |out| =>
      if Writes(start, |pred|, border, |out|, t) then pred[t - start] else out[t])
  }

  function SentinelFrames(full: nat): (r: seq<FrameLogits>)
    ensures |r| == full
    ensures forall t :: 0 <= t < full ==> r[t] == FrameLogits(Sentinel, Sentinel)
  {
    seq(full, _ => FrameLogits(Sentinel, Sentinel))
  }

  /** The frames after chunks |preds| - 1 down to k have been applied. */
  function AfterChunks(preds: seq<seq<FrameLogits>>, starts: seq<int>, full: nat, border: int, k: nat): (r: seq<FrameLogits>)
    requires |preds| == |starts| && k <= |preds| && 0 <= border
    ensures |r| == full
    decreases |preds| - k
  {
    if k == |preds| then SentinelFrames(full)
    else ApplyChunk(AfterChunks(preds, starts, full, border, k + 1), preds[k], starts[k], border)
  }

  /** `aggregate_prediction`: chunks applied in reverse order over sentinel frames. */
  function Aggregate(preds: seq<seq<FrameLogits>>, starts: seq<int>, full: nat, border: int): (r: seq<FrameLogits>)
    requires |preds| == |starts| && 0 <= border
    ensures |r| == full
  {
    AfterChunks(preds, starts, full, border, 0)
  }

  /** The lowest-index chunk from k on that writes frame t, if any. */
  function FirstWriter(preds: seq<seq<FrameLogits>>, starts: seq<int>, full: nat, border: int, t: int, k: nat): (w: Option<nat>)
    requires |preds| == |starts| && k <= |preds|
    ensures w.Some? ==> k <= w.value < |preds| && Writes(starts[w.value], |preds[w.value]|, border, full, t)
    ensures w.Some? ==> forall i :: k <= i < w.value ==> !Writes(starts[i], |preds[i]|, border, full, t)
    ensures w.None? ==> forall i :: k <= i < |preds| ==> !Writes(starts[i], |preds[i]|, border, full, t)
    decreases |preds| - k
  {
    if k == |preds| then None
    else if Writes(starts[k], |preds[k]|, border, full, t) then Some(k)
    else FirstWriter(preds, starts, full, border, t, k + 1)
  }

  /** Keep-first: frame t holds the prediction of the lowest-index chunk that
      writes it, and the sentinel when no chunk does. */
  lemma {:induction false} AfterChunksKeepsFirst(preds: seq<seq<FrameLogits>>, starts: seq<int>, full: nat, border: int, k: nat, t: nat)
    requires |preds| == |starts| && k <= |preds| && 0 <= border && t < full
    ensures var w := FirstWriter(preds, starts, full, border, t, k);
            AfterChunks(preds, starts, full, border, k)[t] ==
              if w.None? then FrameLogits(Sentinel, Sentinel) else preds[w.value][t - starts[w.value]]
    decreases |preds| - k
  {
    if k < |preds| {
      AfterChunksKeepsFirst(preds, starts, full, border, k + 1, t);
    }
  }

  lemma AggregateKeepsFirst(preds: seq<seq<FrameLogits>>, starts: seq<int>, full: nat, border: int, t: nat)
    requires |preds| == |starts| && 0 <= border && t < full
    ensures var w := FirstWriter(preds, starts, full, border, t, 0);
            Aggregate(preds, starts, full, border)[t] ==
              if w.None? then FrameLogits(Sentinel, Sentinel) else preds[w.value][t - starts[w.value]]
  {
    AfterChunksKeepsFirst(preds, starts, full, border, 0, t);
  }

  /** The write loop for one chunk. */
  method WriteChunk(out: seq<FrameLogits>, pred: seq<FrameLogits>, start: int, border: int) returns (r: seq<FrameLogits>)
    requires 0 <= border
    ensures r == ApplyChunk(out, pred, start, border)
  {
    r := out;
    var full := |out|;
    var lo, hi := border, |pred| - border;
    if |pred| < 2 * border {
      lo, hi := 0, |pred|;
    }
    var j := lo;
    while j < hi
      invariant lo <= j <= Max(lo, hi)
      invariant |r| == full
      invariant forall t :: 0 <= t < full ==>
                  r[t] == if Writes(start, |pred|, border, full, t) && t - start < j then pred[t - start] else out[t]
    {
      var target := start + j;
      if 0 <= target < full {
        r := r[target := pred[j]];
      }
      j := j + 1;
    }
  }

  /** The reverse loop of `aggregate_prediction`. */
  method AggregatePrediction(preds: seq<seq<FrameLogits>>, starts: seq<int>, full: nat, border: int) returns (r: seq<FrameLogits>)
    requires |preds| == |starts| && 0 <= border
    ensures r == Aggregate(preds, starts, full, border)
  {
    r := SentinelFrames(full);
    var i := |preds|;
    while i > 0
      invariant 0 <= i <= |preds|
      invariant r == AfterChunks(preds, starts, full, border, i)
    {
      i := i - 1;
      r := WriteChunk(r, preds[i], starts[i], border);
    }
  }

  // ---------------------------------------------------------------------------
  // The whole protocol
  // ---------------------------------------------------------------------------

  /** The network's scores for every chunk. */
  function Predictions(spect: Spectrogram, score: Spectrogram -> seq<FrameLogits>): (preds: seq<seq<FrameLogits>>)
    requires Rectangular(spect)
    ensures |preds| == |Starts(|spect|, ChunkSize, BorderSize)|
  {
    var chunks := SplitPiece(spect, ChunkSize, BorderSize);
    seq(|chunks|, k requires 0 <= k < |chunks| => score(chunks[k]))
  }

  /** `process_spectrogram`: split, score every chunk, and stitch. */
  function ProcessSpectrogram(spect: Spectrogram, score: Spectrogram -> seq<FrameLogits>): (r: Logits)
    requires Rectangular(spect)
    ensures |r.beat| == |spect| && |r.downbeat| == |spect|
  {
    var frames := Aggregate(Predictions(spect, score), Starts(|spect|, ChunkSize, BorderSize), |spect|, BorderSize);
    Logits(seq(|frames|, t requires 0 <= t < |frames| => frames[t].beat),
           seq(|frames|, t requires 0 <= t < |frames| => frames[t].downbeat))
  }

  /** The network returns one frame per input row. */
  ghost predicate LengthPreserving(score: Spectrogram -> seq<FrameLogits>) {
    forall c :: |score(c)| == |c|
  }

  /** Every frame of the piece lies strictly inside the kept part of some chunk. */
  lemma {:induction false} CoveredFrom(len: nat, chunk: int, border: int, t: int, k: nat)
    requires 0 <= border && 2 * border < chunk
    requires k < |Starts(len, chunk, border)| && 0 <= t < len
    requires Starts(len, chunk, border)[k] + border <= t
    ensures exists i :: k <= i < |Starts(len, chunk, border)| &&
              Starts(len, chunk, border)[i] + border <= t < Starts(len, chunk, border)[i] + chunk - border
    decreases |Starts(len, chunk, border)| - k
  {
    var s := Starts(len, chunk, border);
    if k + 1 < |s| && s[k + 1] + border <= t {
      CoveredFrom(len, chunk, border, t, k + 1);
    } else {
      assert s[k] + border <= t < s[k] + chunk - border;
    }
  }

  /** A chunk whose kept part, at full chunk length, contains frame t writes frame t. */
  lemma KeptByChunk(spect: Spectrogram, score: Spectrogram -> seq<FrameLogits>, t: nat, i: nat)
    requires Rectangular(spect) && LengthPreserving(score) && t < |spect|
    requires i < |Starts(|spect|, ChunkSize, BorderSize)|
    requires var s := Starts(|spect|, ChunkSize, BorderSize);
             s[i] + BorderSize <= t < s[i] + ChunkSize - BorderSize
    ensures Writes(Starts(|spect|, ChunkSize, BorderSize)[i], |Predictions(spect, score)[i]|, BorderSize, |spect|, t)
  {
    var s := Starts(|spect|, ChunkSize, BorderSize);
    var chunks := SplitPiece(spect, ChunkSize, BorderSize);
    var preds := Predictions(spect, score);
    assert s[i] + |chunks[i]| == Min(s[i] + ChunkSize, |spect| + BorderSize);
    assert preds[i] == score(chunks[i]);
    assert |preds[i]| == |chunks[i]|;
  }

  /** With a length-preserving network, every frame of the piece is written by some chunk. */
  lemma EveryFrameWritten(spect: Spectrogram, score: Spectrogram -> seq<FrameLogits>, t: nat)
    requires Rectangular(spect) && LengthPreserving(score) && t < |spect|
    ensures FirstWriter(Predictions(spect, score), Starts(|spect|, ChunkSize, BorderSize), |spect|, BorderSize, t, 0).Some?
  {
    var s := Starts(|spect|, ChunkSize, BorderSize);
    CoveredFrom(|spect|, ChunkSize, BorderSize, t, 0);
    var i :| 0 <= i < |s| && s[i] + BorderSize <= t < s[i] + ChunkSize - BorderSize;
    KeptByChunk(spect, score, t, i);
  }

  /** The lowest-index chunk that keeps frame t, and the value stitched there. */
  lemma FirstKeepingChunk(spect: Spectrogram, score: Spectrogram -> seq<FrameLogits>, t: nat) returns (k: nat)
    requires Rectangular(spect) && LengthPreserving(score) && t < |spect|
    ensures var s := Starts(|spect|, ChunkSize, BorderSize);
            var chunks := SplitPiece(spect, ChunkSize, BorderSize);
            && k < |s| && s[k] + BorderSize <= t < s[k] + |chunks[k]| - BorderSize
            && Aggregate(Predictions(spect, score), s, |spect|, BorderSize)[t] == score(chunks[k])[t - s[k]]
  {
    var s := Starts(|spect|, ChunkSize, BorderSize);
    var preds := Predictions(spect, score);
    var chunks := SplitPiece(spect, ChunkSize, BorderSize);
    EveryFrameWritten(spect, score, t);
    AggregateKeepsFirst(preds, s, |spect|, BorderSize, t);
    k := FirstWriter(preds, s, |spect|, BorderSize, t, 0).value;
    ChunksLongerThanBorders(spect, ChunkSize, BorderSize, k);
    assert preds[k] == score(chunks[k]);
  }

  /** Frame t of the output is the network's score for the corresponding row
      of the lowest-index chunk that keeps it. */
  lemma OutputFromFirstChunk(spect: Spectrogram, score: Spectrogram -> seq<FrameLogits>, t: nat)
    requires Rectangular(spect) && LengthPreserving(score) && t < |spect|
    ensures var s := Starts(|spect|, ChunkSize, BorderSize);
            var chunks := SplitPiece(spect, ChunkSize, BorderSize);
            exists k :: 0 <= k < |s| && s[k] + BorderSize <= t < s[k] + |chunks[k]| - BorderSize &&
              ProcessSpectrogram(spect, score).beat[t] == score(chunks[k])[t - s[k]].beat &&
              ProcessSpectrogram(spect, score).downbeat[t] == score(chunks[k])[t - s[k]].downbeat
  {
    var k := FirstKeepingChunk(spect, score, t);
    var frames := Aggregate(Predictions(spect, score), Starts(|spect|, ChunkSize, BorderSize), |spect|, BorderSize);
    assert ProcessSpectrogram(spect, score).beat[t] == frames[t].beat;
    assert ProcessSpectrogram(spect, score).downbeat[t] == frames[t].downbeat;
  }

  /** If the network never outputs the sentinel value, none survives in the output. */
  lemma NoSentinelSurvives(spect: Spectrogram, score: Spectrogram -> seq<FrameLogits>)
    requires Rectangular(spect) && LengthPreserving(score)
    requires forall c, j :: 0 <= j < |score(c)| ==> score(c)[j].beat != Sentinel && score(c)[j].downbeat != Sentinel
    ensures forall t :: 0 <= t < |spect| ==>
              ProcessSpectrogram(spect, score).beat[t] != Sentinel &&
              ProcessSpectrogram(spect, score).downbeat[t] != Sentinel
  {
    forall t | 0 <= t < |spect|
      ensures ProcessSpectrogram(spect, score).beat[t] != Sentinel
      ensures ProcessSpectrogram(spect, score).downbeat[t] != Sentinel
    {
      OutputFromFirstChunk(spect, score, t);
    }
  }
}

=== FILE: mel.dfy ===
/**
  The index arithmetic of the mel spectrogram front end (`MelSpectrogram`):
  reflect padding, framing, the mel filterbank grid with its triangular
  weights, and the floor under the logarithm. The Fourier transform with its
  Hann window, and the logarithmic branches of the mel scale, are function
  parameters.
 */
module Mel {
  import opened Sequences

  const SampleRate: int := 22050
  const NFft: int := 1024
  const HopLength: int := 441
  /** Reflect padding on each side: half the FFT size. */
  const PadSize: int := 512
  const NMels: int := 128
  /** Frequency bins of a real FFT of size NFft. */
  const NFreqs: int := 513
  const FMin: real := 30.0
  const FMax: real := 11000.0
  const LogMultiplier: real := 1000.0
  const AMin: real := 0.0000000001

  /** Slaney mel scale: linear below MinLogHz with FSp Hz per mel. */
  const FSp: real := 200.0 / 3.0
  const MinLogHz: real := 1000.0
  const MinLogMel: real := 15.0

  // ---------------------------------------------------------------------------
  // Mel scale
  // ---------------------------------------------------------------------------

  /** `hz_to_mel`; `logMel` stands for the logarithmic branch at and above MinLogHz. */
  function HzToMel(hz: real, logMel: real -> real): (mel: real)
    ensures hz < MinLogHz ==> mel * 200.0 == hz * 3.0
  {
    if hz >= MinLogHz then logMel(hz) else hz / FSp
  }

  /** `mel_to_hz`; `expHz` stands for the exponential branch at and above MinLogMel. */
  function MelToHz(mel: real, expHz: real -> real): (hz: real)
    ensures mel < MinLogMel ==> hz * 3.0 == mel * 200.0
  {
    if mel >= MinLogMel then expHz(mel) else FSp * mel
  }

  /** Below 1000 Hz the two conversions invert each other. */
  lemma LinearBranchRoundTrip(hz: real, mel: real, logMel: real -> real, expHz: real -> real)
    ensures hz < MinLogHz ==> MelToHz(HzToMel(hz, logMel), expHz) == hz
    ensures mel < MinLogMel ==> HzToMel(MelToHz(mel, expHz), logMel) == mel
  {
    if hz < MinLogHz {
      assert HzToMel(hz, logMel) < MinLogMel;
    }
    if mel < MinLogMel {
      assert MelToHz(mel, expHz) < MinLogHz;
    }
  }

  /** n + 2 evenly spaced points from melMin to melMax. */
  function MelPoints(melMin: real, melMax: real): (p: seq<real>)
    ensures |p| == NMels + 2
    ensures p[0] == melMin && p[NMels + 1] == melMax
    ensures forall i :: 0 < i < |p| ==> p[i] - p[i - 1] == (melMax - melMin) / (NMels + 1) as real
  {
    seq(NMels + 2, i requires 0 <= i < NMels + 2 => melMin + (melMax - melMin) * i as real / (NMels + 1) as real)
  }

  /** Sign and size of a quotient by a positive divisor. */
  lemma QuotientFacts(a: real, b: real)
    requires b > 0.0
    ensures a <= 0.0 ==> a / b <= 0.0
    ensures a > 0.0 ==> a / b > 0.0
    ensures a <= b ==> a / b <= 1.0
    ensures a < b ==> a / b < 1.0
  {
    assert (a / b) * b == a;
  }

  /** With melMin below melMax the grid increases strictly. */
  lemma MelPointsIncreasing(melMin: real, melMax: real)
    requires melMin < melMax
    ensures forall i, j :: 0 <= i < j < NMels + 2 ==> MelPoints(melMin, melMax)[i] < MelPoints(melMin, melMax)[j]
  {
    var p := MelPoints(melMin, melMax);
    var d := (melMax - melMin) / (NMels + 1) as real;
    assert d > 0.0;
    forall i, j | 0 <= i < j < NMels + 2
      ensures p[i] < p[j]
    {
      var k := i + 1;
      while k <= j
        invariant i + 1 <= k <= j + 1
        invariant p[i] < p[k - 1] || k == i + 1
      {
        assert p[k] - p[k - 1] == d;
        k := k + 1;
      }
    }
  }

  /** Centre frequency of each FFT bin. */
  function BinFrequencies(): (f: seq<real>)
    ensures |f| == NFreqs
    ensures f[0] == 0.0 && f[NFreqs - 1] == SampleRate as real / 2.0
    ensures forall i :: 0 < i < NFreqs ==> f[i] - f[i - 1] == SampleRate as real / NFft as real
  {
    seq(NFreqs, i requires 0 <= i < NFreqs => i as real * SampleRate as real / NFft as real)
  }

  /** Weight of bin frequency `hz` in the triangle (left, center, right):
      both slopes, a zero-width side giving slope 0, clipped below at 0. */
  function TriangleWeight(hz: real, left: real, center: real, right: real): (w: real)
    ensures w >= 0.0
  {
    var leftSlope := if center - left != 0.0 then (hz - left) / (center - left) else 0.0;
    var rightSlope := if right - center != 0.0 then (right - hz) / (right - center) else 0.0;
    var m := if leftSlope <= rightSlope then leftSlope else rightSlope;
    if m >= 0.0 then m else 0.0
  }

  /** For a proper triangle the weight vanishes outside (left, right), rises
      to 1 at the centre, and never exceeds 1. */
  lemma TriangleShape(hz: real, left: real, center: real, right: real)
    requires left < center < right
    ensures hz <= left || hz >= right ==> TriangleWeight(hz, left, center, right) == 0.0
    ensures TriangleWeight(center, left, center, right) == 1.0
    ensures TriangleWeight(hz, left, center, right) <= 1.0
    ensures left < hz < right ==> TriangleWeight(hz, left, center, right) > 0.0
  {
    QuotientFacts(hz - left, center - left);
    QuotientFacts(right - hz, right - center);
    QuotientFacts(center - left, center - left);
    QuotientFacts(right - center, right - center);
  }

  /** A triangle with a zero-width side has weight 0 at every frequency. */
  lemma ZeroWidthSideSilences(hz: real, left: real, center: real, right: real)
    requires center == left || right == center
    ensures TriangleWeight(hz, left, center, right) == 0.0
  {
  }

  /** The filterbank of `create_mel_filterbank`, NFreqs rows by NMels columns,
      from the NMels + 2 triangle corner frequencies. */
  function Filterbank(hzPoints: seq<real>): (fb: seq<seq<real>>)
    requires |hzPoints| == NMels + 2
    ensures |fb| == NFreqs
    ensures forall i :: 0 <= i < NFreqs ==> |fb[i]| == NMels
    ensures forall i, j :: 0 <= i < NFreqs && 0 <= j < NMels ==> fb[i][j] >= 0.0
  {
    var freqs := BinFrequencies();
    seq(NFreqs, i requires 0 <= i < NFreqs =>
      seq(NMels, j requires 0 <= j < NMels => TriangleWeight(freqs[i], hzPoints[j], hzPoints[j + 1], hzPoints[j + 2])))
  }

  /** Filter j only picks up bins strictly between its outer corners. */
  lemma FilterSupport(hzPoints: seq<real>, i: nat, j: nat)
    requires |hzPoints| == NMels + 2 && i < NFreqs && j < NMels
    requires hzPoints[j] < hzPoints[j + 1] < hzPoints[j + 2]
    ensures Filterbank(hzPoints)[i][j] > 0.0 <==> hzPoints[j] < BinFrequencies()[i] < hzPoints[j + 2]
  {
    TriangleShape(BinFrequencies()[i], hzPoints[j], hzPoints[j + 1], hzPoints[j + 2]);
  }

  /** `create_mel_filterbank`: corners evenly spaced on the mel scale between
      FMin and FMax, mapped back to Hz. */
  function MelFilterbank(logMel: real -> real, expHz: real -> real): (fb: seq<seq<real>>)
    ensures |fb| == NFreqs
    ensures forall i :: 0 <= i < NFreqs ==> |fb[i]| == NMels
    ensures forall i, j :: 0 <= i < NFreqs && 0 <= j < NMels ==> fb[i][j] >= 0.0
  {
    var mels := MelPoints(HzToMel(FMin, logMel), HzToMel(FMax, logMel));
    var hzPoints := seq(NMels + 2, i requires 0 <= i < NMels + 2 => MelToHz(mels[i], expHz));
    Filterbank(hzPoints)
  }

  /** The lower corner of the first filter is FMin itself: the linear branch round trip. */
  lemma FirstCornerIsFMin(logMel: real -> real, expHz: real -> real)
    ensures MelToHz(MelPoints(HzToMel(FMin, logMel), HzToMel(FMax, logMel))[0], expHz) == FMin
  {
    LinearBranchRoundTrip(FMin, 0.0, logMel, expHz);
  }

  // ---------------------------------------------------------------------------
  // Padding and framing
  // ---------------------------------------------------------------------------

  /** The PadSize samples before the signal: audio[PadSize], ..., audio[1]. */
  function LeftReflection(audio: seq<real>): (pre: seq<real>)
    requires |audio| > PadSize
    ensures |pre| == PadSize
  {
    seq(PadSize, k requires 0 <= k < PadSize => audio[PadSize - k])
  }

  /** The PadSize samples after the signal: audio[n - 2], ..., audio[n - 1 - PadSize]. */
  function RightReflection(audio: seq<real>): (post: seq<real>)
    requires |audio| > PadSize
    ensures |post| == PadSize
  {
    seq(PadSize, k requires 0 <= k < PadSize => audio[|audio| - 2 - k])
  }

  /** Reflect padding by PadSize on each side, the edge samples not repeated. */
  function ReflectPad(audio: seq<real>): (padded: seq<real>)
    requires |audio| > PadSize
    ensures |padded| == |audio| + 2 * PadSize
    ensures forall k :: 0 <= k < PadSize ==> padded[k] == audio[PadSize - k]
    ensures forall i :: 0 <= i < |audio| ==> padded[PadSize + i] == audio[i]
    ensures forall k :: PadSize + |audio| <= k < |padded| ==> padded[k] == audio[2 * |audio| + PadSize - 2 - k]
  {
    LeftReflection(audio) + audio + RightReflection(audio)
  }

  /** The padding mirrors the signal about its first and about its last sample. */
  lemma ReflectPadMirrors(audio: seq<real>, m: int)
    requires |audio| > PadSize && 1 <= m <= PadSize
    ensures ReflectPad(audio)[PadSize - m] == ReflectPad(audio)[PadSize + m]
    ensures ReflectPad(audio)[PadSize + |audio| - 1 + m] == ReflectPad(audio)[PadSize + |audio| - 1 - m]
  {
    var padded := ReflectPad(audio);
    var n := |audio|;
    assert padded[PadSize + n - 1 + m] == audio[2 * n + PadSize - 2 - (PadSize + n - 1 + m)];
    assert padded[PadSize + (n - 1 - m)] == audio[n - 1 - m];
  }

  /** The three padding loops of `compute`. */
  method PadAudio(audio: seq<real>) returns (padded: seq<real>)
    requires |audio| > PadSize
    ensures padded == ReflectPad(audio)
  {
    var n := |audio|;
    var pre := [];
    var i := PadSize;
    while i >= 1
      invariant 0 <= i <= PadSize
      invariant pre == LeftReflection(audio)[..PadSize - i]
    {
      assert LeftReflection(audio)[..PadSize - i + 1] == pre + [audio[i]];
      pre := pre + [audio[i]];
      i := i - 1;
    }
    var post := [];
    i := 1;
    while i <= PadSize
      invariant 1 <= i <= PadSize + 1
      invariant post == RightReflection(audio)[..i - 1]
    {
      assert RightReflection(audio)[..i] == post + [audio[n - 1 - i]];
      post := post + [audio[n - 1 - i]];
      i := i + 1;
    }
    assert pre == LeftReflection(audio) && post == RightReflection(audio);
    padded := pre + audio + post;
  }

  /** Frame count of `compute` for n samples: (n + 2 * PadSize - NFft) / HopLength + 1. */
  function NumFrames(n: nat): (f: int)
    ensures f >= 1
    ensures f == n / HopLength + 1
  {
    (n + 2 * PadSize - NFft) / HopLength + 1
  }

  /** Every analysis window [i * HopLength, i * HopLength + NFft) lies inside the padded signal. */
  lemma FrameWindowsInBounds(n: nat, i: nat)
    requires i < NumFrames(n)
    ensures i * HopLength + NFft <= n + 2 * PadSize
  {
    assert i <= n / HopLength;
    assert i * HopLength <= (n / HopLength) * HopLength <= n;
  }

  /** The samples of analysis window i. */
  function Frame(padded: seq<real>, i: nat): (w: seq<real>)
    requires i * HopLength + NFft <= |padded|
    ensures |w| == NFft
  {
    padded[i * HopLength .. i * HopLength + NFft]
  }

  // ---------------------------------------------------------------------------
  // Mel energies and the logarithm
  // ---------------------------------------------------------------------------

  /** Products of amplitude and filter weight for mel band m over the first n bins. */
  function BinProducts(amplitude: seq<real>, fb: seq<seq<real>>, m: nat, n: nat): (p: seq<real>)
    requires n <= |amplitude| && n <= |fb| && forall k :: 0 <= k < n ==> m < |fb[k]|
    ensures |p| == n
  {
    seq(n, k requires 0 <= k < n => amplitude[k] * fb[k][m])
  }

  /** Mel energy of band m over the first n bins, accumulated bin by bin as
      the inner loop of `compute` does; it is the sum of the bin products. */
  function MelEnergy(amplitude: seq<real>, fb: seq<seq<real>>, m: nat, n: nat): (e: real)
    requires n <= |amplitude| && n <= |fb| && forall k :: 0 <= k < n ==> m < |fb[k]|
    ensures e == Sum(BinProducts(amplitude, fb, m, n))
    decreases n
  {
    if n == 0 then 0.0
    else
      assert BinProducts(amplitude, fb, m, n)[..n - 1] == BinProducts(amplitude, fb, m, n - 1);
      MelEnergy(amplitude, fb, m, n - 1) + amplitude[n - 1] * fb[n - 1][m]
  }

  /** Non-negative amplitudes through non-negative weights give non-negative energy. */
  lemma {:induction false} MelEnergyNonNegative(amplitude: seq<real>, fb: seq<seq<real>>, m: nat, n: nat)
    requires n <= |amplitude| && n <= |fb| && forall k :: 0 <= k < n ==> m < |fb[k]|
    requires forall k :: 0 <= k < n ==> amplitude[k] >= 0.0 && fb[k][m] >= 0.0
    ensures MelEnergy(amplitude, fb, m, n) >= 0.0
    decreases n
  {
    if n > 0 {
      MelEnergyNonNegative(amplitude, fb, m, n - 1);
      assert amplitude[n - 1] * fb[n - 1][m] >= 0.0;
    }
  }

  /** The argument passed to log1p: the scaled energy, clipped below at AMin. */
  function Log1pArgument(energy: real): (a: real)
    ensures a >= LogMultiplier * AMin
    ensures energy >= AMin ==> a == LogMultiplier * energy
  {
    LogMultiplier * (if energy >= AMin then energy else AMin)
  }

  /** The NFreqs bin magnitudes of one window; `amplitude(w, k)` stands for the
      normalised magnitude of bin k of the Hann-windowed FFT of window w. */
  function Spectrum(window: seq<real>, amplitude: (seq<real>, int) -> real): (amp: seq<real>)
    ensures |amp| == NFreqs
  {
    seq(NFreqs, k requires 0 <= k < NFreqs => amplitude(window, k))
  }

  /** `x` is log1p of an argument no smaller than LogMultiplier * AMin. */
  ghost predicate LogOfClipped(x: real, log1p: real -> real) {
    exists a :: a >= LogMultiplier * AMin && x == log1p(a)
  }

  /** The NMels output values of one window. */
  function MelRow(window: seq<real>, fb: seq<seq<real>>, amplitude: (seq<real>, int) -> real, log1p: real -> real): (row: seq<real>)
    requires |fb| == NFreqs && forall k :: 0 <= k < NFreqs ==> |fb[k]| == NMels
    ensures |row| == NMels
    ensures forall m :: 0 <= m < NMels ==> LogOfClipped(row[m], log1p)
  {
    var amp := Spectrum(window, amplitude);
    var row := seq(NMels, m requires 0 <= m < NMels => log1p(Log1pArgument(MelEnergy(amp, fb, m, NFreqs))));
    assert forall m :: 0 <= m < NMels ==> row[m] == log1p(Log1pArgument(MelEnergy(amp, fb, m, NFreqs)));
    row
  }

  /** `compute` with the transform and log1p as parameters. Audio of at most
      PadSize samples yields no frames (see the reflect padding finding). */
  function Compute(audio: seq<real>, fb: seq<seq<real>>, amplitude: (seq<real>, int) -> real, log1p: real -> real): (spect: seq<seq<real>>)
    requires |fb| == NFreqs && forall k :: 0 <= k < NFreqs ==> |fb[k]| == NMels
    ensures |audio| <= PadSize ==> spect == []
    ensures |audio| > PadSize ==> |spect| == |audio| / HopLength + 1
    ensures forall i :: 0 <= i < |spect| ==> |spect[i]| == NMels
    ensures forall i, m :: 0 <= i < |spect| && 0 <= m < NMels ==> LogOfClipped(spect[i][m], log1p)
  {
    if |audio| <= PadSize then []
    else
      var padded := ReflectPad(audio);
      seq(NumFrames(|audio|), i requires 0 <= i < NumFrames(|audio|) =>
        FrameInBoundsFor(|audio|, i);
        MelRow(Frame(padded, i), fb, amplitude, log1p))
  }

  /** Centred framing: sample PadSize of window i is audio sample i * HopLength. */
  lemma FrameCentredOnHop(audio: seq<real>, i: nat)
    requires |audio| > PadSize && i * HopLength < |audio|
    ensures i < NumFrames(|audio|)
    ensures Frame(ReflectPad(audio), i)[PadSize] == audio[i * HopLength]
  {
    assert i * HopLength + NFft <= |audio| + 2 * PadSize;
    assert Frame(ReflectPad(audio), i)[PadSize] == ReflectPad(audio)[PadSize + i * HopLength];
  }

  /** Bridge from the frame count to the slice bounds of Frame. */
  lemma FrameInBoundsFor(n: nat, i: nat)
    requires i < NumFrames(n)
    ensures i * HopLength + NFft <= n + 2 * PadSize
  {
    FrameWindowsInBounds(n, i);
  }

  // ---------------------------------------------------------------------------
  // The padding loops as written
  // ---------------------------------------------------------------------------

  /** size_t arithmetic: reduction modulo 2^64. */
  function SizeT(x: int): (r: nat)
    ensures r < 0x1_0000_0000_0000_0000
    ensures 0 <= x < 0x1_0000_0000_0000_0000 ==> r == x
  {
    x % 0x1_0000_0000_0000_0000
  }

  /** The indices into the audio that the two padding loops of `compute` read,
      in order, for n samples: PadSize down to 1, then size() - 1 - i for
      i = 1 .. PadSize, computed in size_t. */
  function PaddingReads(n: nat): (idx: seq<int>)
    requires n < 0x1_0000_0000_0000_0000
    ensures |idx| == 2 * PadSize
    // Pre-padding: audio[PadSize] first, then one sample lower each step, down to audio[1].
    ensures idx[0] == PadSize && idx[PadSize - 1] == 1
    ensures forall k :: 0 < k < PadSize ==> idx[k] == idx[k - 1] - 1
    // Post-padding: audio[n - 2] first, then one sample lower each step, down to
    // audio[n - 1 - PadSize] ...
    ensures forall k :: PadSize <= k < 2 * PadSize && k - PadSize + 2 <= n ==> idx[k] == n - 2 - (k - PadSize)
    // ... where an index below zero wraps around to the top of the size range.
    ensures forall k :: PadSize <= k < 2 * PadSize && n < k - PadSize + 2 ==>
              idx[k] == 0x1_0000_0000_0000_0000 + n - 2 - (k - PadSize)
  {
    seq(2 * PadSize, k requires 0 <= k < 2 * PadSize =>
      if k < PadSize then PadSize - k else SizeT(SizeT(n - 1) - (k - PadSize + 1)))
  }

  /** Every read of the padding loops is in bounds exactly when the audio has
      more than PadSize samples. */
  lemma PaddingReadsInBoundsIff(n: nat)
    requires n < 0x1_0000_0000_0000_0000
    ensures (forall k :: 0 <= k < 2 * PadSize ==> PaddingReads(n)[k] < n) <==> n > PadSize
  {
    var idx := PaddingReads(n);
    if n > PadSize {
      forall k | 0 <= k < 2 * PadSize
        ensures idx[k] < n
      {
      }
    } else {
      assert idx[0] == PadSize;
    }
  }

  /** With 512 samples the first pre-padding read is audio[512], one past the end. */
  lemma ShortAudioReadsPastEnd()
    ensures PaddingReads(512)[0] == 512
    ensures PaddingReads(0)[PadSize] == 0x1_0000_0000_0000_0000 - 2
  {
  }
}

=== FILE: mono_mix.dfy ===
/**
  Down-mixing of interleaved multi-channel audio to one channel: each output
  sample is the arithmetic mean of the channel samples of one frame.
  Samples are reals; single-precision rounding is not modelled.
 */
module MonoMix {
  import opened Sequences

  /** Frame `i` of interleaved audio lies inside the buffer when `i` is below the frame count. */
  lemma FrameInBounds(n: nat, channels: nat, i: nat)
    requires channels >= 1 && i < n / channels
    ensures (i + 1) * channels <= n
  {
    assert i + 1 <= n / channels;
    assert (i + 1) * channels <= (n / channels) * channels;
  }

  /** Sample `r` of frame `i` belongs to frame `i`. */
  lemma FrameOfSample(i: nat, channels: nat, r: nat)
    requires channels >= 1 && r < channels
    ensures (i * channels + r) / channels == i
  {
    var k := i * channels + r;
    var q := k / channels;
    assert k == q * channels + k % channels;
    if q < i {
      MulMonotone(q + 1, i, channels);
      assert false;
    } else if q > i {
      MulMonotone(i + 1, q, channels);
      assert false;
    }
  }

  /** Mean of the channel samples of frame `i`: it lies between the smallest
      and the largest of them, so a frame whose channels agree mixes to that
      common sample. */
  function FrameMean(audio: seq<real>, channels: nat, i: nat): (r: real)
    requires channels >= 1 && i < |audio| / channels
    ensures i * channels + channels <= |audio|
    ensures var frame := audio[i * channels .. i * channels + channels];
            && (exists c :: 0 <= c < channels && frame[c] <= r)
            && (exists d :: 0 <= d < channels && r <= frame[d])
            && ((forall c :: 0 <= c < channels ==> frame[c] == frame[0]) ==> r == frame[0])
  {
    FrameInBounds(|audio|, channels, i);
    var frame := audio[i * channels .. i * channels + channels];
    MeanBracketed(frame);
    Mean(frame)
  }

  /** Width of the source's unsigned size type: a negative channel count is
      converted to an unsigned divisor modulo this value. */
  const SizeRange: int := 0x1_0000_0000_0000_0000

  /** Dividing by a larger divisor yields zero. */
  lemma QuotientOfSmaller(n: nat, d: int)
    requires 0 < d
    ensures n < d ==> n / d == 0
  {
    var q := n / d;
    assert n == q * d + n % d;
    if n < d && q >= 1 {
      MulMonotone(1, q, d);
    }
  }

  /** The range of the source's channel count, a 32-bit signed integer. */
  predicate IsInt32(x: int) {
    -0x8000_0000 <= x < 0x8000_0000
  }

  /** Frame count of `convert_to_mono`: the buffer size divided by the channel
      count taken as an unsigned size. */
  function FrameCount(n: nat, channels: int): (frames: nat)
    requires channels != 0 && IsInt32(channels)
    ensures channels > 0 ==> frames * channels <= n < (frames + 1) * channels
    ensures channels < 0 && n < SizeRange / 2 ==> frames == 0
  {
    if channels > 0 then
      var q := n / channels;
      assert n == q * channels + n % channels;
      q
    else
      var d := channels + SizeRange;
      QuotientOfSmaller(n, d);
      n / d
  }

  /** `convert_to_mono`: one channel is returned as is; otherwise one sample per
      complete frame, and a trailing incomplete frame is dropped. A negative
      channel count sums no channel at all, so every frame it yields is zero. */
  function ConvertToMono(audio: seq<real>, channels: int): (mono: seq<real>)
    requires channels != 0 && IsInt32(channels)
    ensures channels == 1 ==> mono == audio
    ensures channels > 0 ==> |mono| * channels <= |audio| < (|mono| + 1) * channels
    ensures channels < 0 && |audio| < SizeRange / 2 ==> mono == []
    ensures channels < 0 ==> forall i :: 0 <= i < |mono| ==> mono[i] == 0.0
  {
    if channels == 1 then audio
    else if channels < 0 then seq(FrameCount(|audio|, channels), _ => 0.0)
    else seq(|audio| / channels, i requires 0 <= i < |audio| / channels => FrameMean(audio, channels, i))
  }

  /** The channel sum of frame `i`, divided by the channel count, is its mean. */
  lemma SumOverFrame(audio: seq<real>, channels: nat, i: nat, sum: real)
    requires channels >= 1 && i < |audio| / channels
    requires i * channels + channels <= |audio|
    requires sum == Sum(audio[i * channels .. i * channels + channels])
    ensures sum / channels as real == FrameMean(audio, channels, i)
  {
  }

  /** The nested summation loops of `convert_to_mono`. */
  method MixDown(audio: seq<real>, channels: int) returns (mono: seq<real>)
    requires channels != 0 && IsInt32(channels)
    ensures mono == ConvertToMono(audio, channels)
  {
    if channels == 1 {
      return audio;
    }
    var frames := FrameCount(|audio|, channels);
    mono := [];
    var i := 0;
    while i < frames
      invariant 0 <= i <= frames
      invariant |mono| == i
      invariant channels < 0 ==> forall j :: 0 <= j < i ==> mono[j] == 0.0
      invariant channels > 0 ==> forall j :: 0 <= j < i ==> mono[j] == FrameMean(audio, channels, j)
    {
      var sum := 0.0;
      if channels > 0 {
        FrameInBounds(|audio|, channels, i);
        var base := i * channels;
        var ch := 0;
        while ch < channels
          invariant 0 <= ch <= channels
          invariant sum == Sum(audio[base .. base + ch])
        {
          assert audio[base .. base + ch + 1][..ch] == audio[base .. base + ch];
          sum := sum + audio[base + ch];
          ch := ch + 1;
        }
        SumOverFrame(audio, channels, i, sum);
      }
      mono := mono + [sum / channels as real];
      i := i + 1;
    }
  }

  /** When every channel carries the same signal, the mix is that signal. */
  lemma MixOfIdenticalChannels(x: seq<real>, audio: seq<real>, channels: int)
    requires 1 <= channels < 0x8000_0000
    requires |audio| == |x| * channels
    requires forall k :: 0 <= k < |audio| ==> audio[k] == x[k / channels]
    ensures ConvertToMono(audio, channels) == x
  {
    var mono := ConvertToMono(audio, channels);
    FrameOfSample(|x|, channels, 0);
    assert |audio| / channels == |x|;
    if channels > 1 {
      forall i | 0 <= i < |x|
        ensures mono[i] == x[i]
      {
        FrameInBounds(|audio|, channels, i);
        var frame := audio[i * channels .. i * channels + channels];
        forall c | 0 <= c < channels
          ensures frame[c] == x[i]
        {
          FrameOfSample(i, channels, c);
        }
        MeanBounds(frame, x[i], x[i]);
      }
    }
  }

  /** Mixing stays within the range of the input samples. */
  lemma MixWithinInputRange(audio: seq<real>, channels: int, lo: real, hi: real)
    requires 1 <= channels < 0x8000_0000
    requires forall k :: 0 <= k < |audio| ==> lo <= audio[k] <= hi
    ensures forall i :: 0 <= i < |ConvertToMono(audio, channels)| ==> lo <= ConvertToMono(audio, channels)[i] <= hi
  {
    var mono := ConvertToMono(audio, channels);
    if channels > 1 {
      forall i | 0 <= i < |mono|
        ensures lo <= mono[i] <= hi
      {
        FrameInBounds(|audio|, channels, i);
        MeanBounds(audio[i * channels .. i * channels + channels], lo, hi);
      }
    }
  }
}

=== FILE: peak_picking.dfy ===
/**
  Peak picking on logit curves: the sliding-window maximum, the local-maximum
  test with a positive threshold, and the conversion of peak flags to frame
  indices. Logits are reals; the decoder only compares them.
 */
module PeakPicking {
  import opened Sequences

  /** Kernel width of the local-maximum test in `process`. */
  const PoolKernel: nat := 7

  /** The largest of s[lo], ..., s[hi - 1]. */
  function WindowMax(s: seq<real>, lo: nat, hi: nat): (m: real)
    requires lo < hi <= |s|
    ensures forall j :: lo <= j < hi ==> s[j] <= m
    ensures exists j :: lo <= j < hi && s[j] == m
    decreases hi - lo
  {
    if hi == lo + 1 then s[lo]
    else
      var m' := WindowMax(s, lo, hi - 1);
      if s[hi - 1] > m' then s[hi - 1] else m'
  }

  /** `j` lies in the pooling window of half-width `h` around `i`, inside the input. */
  predicate InWindow(n: int, h: int, i: int, j: int) {
    0 <= j < n && i - h <= j <= i + h
  }

  /** The maximum over the window of half-width `h` around `i`. */
  function PooledAt(input: seq<real>, h: nat, i: nat): (m: real)
    requires i < |input|
    ensures forall j :: InWindow(|input|, h, i, j) ==> input[j] <= m
    ensures exists j :: InWindow(|input|, h, i, j) && input[j] == m
  {
    var lo := if i - h < 0 then 0 else i - h;
    var hi := if i + h + 1 > |input| then |input| else i + h + 1;
    var m := WindowMax(input, lo, hi);
    var j :| lo <= j < hi && input[j] == m;
    assert InWindow(|input|, h, i, j);
    m
  }

  /** `max_pool1d_equivalent`: each output is the maximum of the input over the
      window of half-width kernelSize / 2 around it, clipped to the input. */
  function MaxPool(input: seq<real>, kernelSize: nat): (out: seq<real>)
    ensures |out| == |input|
    ensures forall i, j :: 0 <= i < |input| && InWindow(|input|, kernelSize / 2, i, j) ==> input[j] <= out[i]
    ensures forall i :: 0 <= i < |input| ==>
              exists j :: InWindow(|input|, kernelSize / 2, i, j) && input[j] == out[i]
  {
    var h := kernelSize / 2;
    var out := seq(|input|, i requires 0 <= i < |input| => PooledAt(input, h, i));
    assert forall i :: 0 <= i < |input| ==>
      out[i] == PooledAt(input, h, i) && exists j :: InWindow(|input|, h, i, j) && input[j] == out[i];
    out
  }

  /** The pooling loops of `max_pool1d_equivalent`; `seen` stands for the
      initial minus infinity having been replaced by an input value. */
  method MaxPool1d(input: seq<real>, kernelSize: nat) returns (output: seq<real>)
    ensures output == MaxPool(input, kernelSize)
  {
    var n := |input|;
    var h := kernelSize / 2;
    output := [];
    var i := 0;
    while i < n
      invariant 0 <= i <= n
      invariant |output| == i
      invariant forall p :: 0 <= p < i ==> output[p] == MaxPool(input, kernelSize)[p]
    {
      var maxVal := 0.0;
      var seen := false;
      var k := -h;
      while k <= h
        invariant -h <= k <= h + 1
        invariant k > 0 ==> seen
        invariant !seen ==> k == -h || i + k <= 0
        invariant seen ==> forall j :: 0 <= j < n && i - h <= j < i + k ==> input[j] <= maxVal
        invariant seen ==> exists j :: 0 <= j < n && i - h <= j < i + k && input[j] == maxVal
      {
        var idx := i + k;
        if 0 <= idx < n {
          if !seen || input[idx] > maxVal {
            maxVal := input[idx];
          }
          seen := true;
        }
        k := k + 1;
      }
      var pooled := MaxPool(input, kernelSize)[i];
      var jm :| InWindow(n, h, i, jm) && input[jm] == pooled;
      var jv :| 0 <= jv < n && i - h <= jv <= i + h && input[jv] == maxVal;
      assert input[jm] <= maxVal;
      assert input[jv] <= pooled;
      output := output + [maxVal];
      i := i + 1;
    }
  }

  /** Frame `i` is at least every frame within `h` of it. */
  ghost predicate IsLocalMax(s: seq<real>, h: int, i: int)
    requires 0 <= i < |s|
  {
    forall j :: InWindow(|s|, h, i, j) ==> s[j] <= s[i]
  }

  /** The peak test of `process`: the logit equals its pooled value and is positive. */
  function PeakFlags(logits: seq<real>): (flags: seq<bool>)
    ensures |flags| == |logits|
    ensures forall i :: 0 <= i < |logits| ==>
              (flags[i] <==> logits[i] > 0.0 && IsLocalMax(logits, PoolKernel / 2, i))
  {
    var pooled := MaxPool(logits, PoolKernel);
    seq(|logits|, i requires 0 <= i < |logits| => logits[i] == pooled[i] && logits[i] > 0.0)
  }

  /** Indices of the set flags, in increasing order. */
  function FrameIndices(flags: seq<bool>): (frames: seq<int>)
    ensures |frames| <= |flags|
    ensures StrictlyIncreasing(frames)
    ensures forall x :: x in frames <==> 0 <= x < |flags| && flags[x]
    decreases |flags|
  {
    if |flags| == 0 then []
    else
      var last := |flags| - 1;
      var front := FrameIndices(flags[..last]);
      var frames := front + (if flags[last] then [last] else []);
      forall p | 0 <= p < |front|
        ensures front[p] < last
      {
        assert front[p] in front;
      }
      assert forall x :: x in frames <==> x in front || (flags[last] && x == last);
      frames
  }

  /** Peak flags of the beat and downbeat curves: the test runs over their
      concatenation, as the source does, and the flags are split back. */
  datatype PeakSplit = PeakSplit(beat: seq<bool>, downbeat: seq<bool>)

  function SplitPeaks(beatLogits: seq<real>, downbeatLogits: seq<real>): (r: PeakSplit)
    requires |downbeatLogits| >= |beatLogits|
    ensures |r.beat| == |beatLogits| && |r.downbeat| == |beatLogits|
  {
    var n := |beatLogits|;
    var flags := PeakFlags(beatLogits + downbeatLogits[..n]);
    PeakSplit(flags[..n], flags[n..])
  }

  /** Away from the seam, a beat frame is a peak exactly when it is a positive
      local maximum of the beat curve alone. */
  lemma BeatPeakAwayFromSeam(beatLogits: seq<real>, downbeatLogits: seq<real>, i: nat)
    requires |downbeatLogits| >= |beatLogits|
    requires i + PoolKernel / 2 < |beatLogits|
    ensures SplitPeaks(beatLogits, downbeatLogits).beat[i] <==>
              beatLogits[i] > 0.0 && IsLocalMax(beatLogits, PoolKernel / 2, i)
  {
    var n := |beatLogits|;
    var h := PoolKernel / 2;
    var combined := beatLogits + downbeatLogits[..n];
    assert combined[i] == beatLogits[i];
    if IsLocalMax(combined, h, i) {
      forall j | InWindow(n, h, i, j)
        ensures beatLogits[j] <= beatLogits[i]
      {
        assert InWindow(2 * n, h, i, j);
        assert combined[j] == beatLogits[j];
      }
    }
    if IsLocalMax(beatLogits, h, i) {
      forall j | InWindow(2 * n, h, i, j)
        ensures combined[j] <= combined[i]
      {
        assert InWindow(n, h, i, j);
        assert combined[j] == beatLogits[j];
      }
    }
  }

  /** Away from the seam, a downbeat frame is a peak exactly when it is a
      positive local maximum of the downbeat curve alone. */
  lemma DownbeatPeakAwayFromSeam(beatLogits: seq<real>, downbeatLogits: seq<real>, i: nat)
    requires |downbeatLogits| >= |beatLogits|
    requires PoolKernel / 2 <= i < |beatLogits|
    ensures SplitPeaks(beatLogits, downbeatLogits).downbeat[i] <==>
              downbeatLogits[i] > 0.0 && IsLocalMax(downbeatLogits[..|beatLogits|], PoolKernel / 2, i)
  {
    var n := |beatLogits|;
    var h := PoolKernel / 2;
    var d := downbeatLogits[..n];
    var combined := beatLogits + d;
    assert combined[n + i] == d[i] == downbeatLogits[i];
    if IsLocalMax(combined, h, n + i) {
      forall j | InWindow(n, h, i, j)
        ensures d[j] <= d[i]
      {
        assert InWindow(2 * n, h, n + i, j + n);
        assert combined[j + n] == d[j];
      }
    }
    if IsLocalMax(d, h, i) {
      forall j | InWindow(2 * n, h, n + i, j)
        ensures combined[j] <= combined[n + i]
      {
        assert InWindow(n, h, i, j - n);
        assert combined[j] == d[j - n];
      }
    }
  }

  /** The peak test run on each curve on its own, the pooling window never
      reaching from one curve into the other. */
  function SplitPeaksSeparately(beatLogits: seq<real>, downbeatLogits: seq<real>): (r: PeakSplit)
    requires |downbeatLogits| >= |beatLogits|
    ensures |r.beat| == |beatLogits| && |r.downbeat| == |beatLogits|
    ensures forall i :: 0 <= i < |beatLogits| ==>
              (r.beat[i] <==> beatLogits[i] > 0.0 && IsLocalMax(beatLogits, PoolKernel / 2, i))
    ensures forall i :: 0 <= i < |beatLogits| ==>
              (r.downbeat[i] <==> downbeatLogits[i] > 0.0 && IsLocalMax(downbeatLogits[..|beatLogits|], PoolKernel / 2, i))
  {
    PeakSplit(PeakFlags(beatLogits), PeakFlags(downbeatLogits[..|beatLogits|]))
  }

  /** The joined and the separate peak tests agree on every frame at least
      PoolKernel / 2 frames away from the seam. */
  lemma SplitsAgreeAwayFromSeam(beatLogits: seq<real>, downbeatLogits: seq<real>, i: nat)
    requires |downbeatLogits| >= |beatLogits| && i < |beatLogits|
    ensures i + PoolKernel / 2 < |beatLogits| ==>
              SplitPeaks(beatLogits, downbeatLogits).beat[i] == SplitPeaksSeparately(beatLogits, downbeatLogits).beat[i]
    ensures PoolKernel / 2 <= i ==>
              SplitPeaks(beatLogits, downbeatLogits).downbeat[i] == SplitPeaksSeparately(beatLogits, downbeatLogits).downbeat[i]
  {
    if i + PoolKernel / 2 < |beatLogits| {
      BeatPeakAwayFromSeam(beatLogits, downbeatLogits, i);
    }
    if PoolKernel / 2 <= i {
      DownbeatPeakAwayFromSeam(beatLogits, downbeatLogits, i);
    }
  }

  /** Near the seam the two curves mix: the last beat frame below is the
      positive maximum of the beat curve, yet not a peak of the joined test,
      because the first downbeat logit is larger. */
  lemma SeamMixesCurves()
    ensures SplitPeaks([0.0, 1.0], [2.0, 0.0]).beat == [false, false]
  {
    var b := [0.0, 1.0];
    var d := [2.0, 0.0];
    var combined := b + d[..2];
    assert combined[1] == 1.0 && combined[2] == 2.0 && combined[0] == 0.0;
    assert |combined| == 4;
    var flags := PeakFlags(combined);
    assert !IsLocalMax(combined, PoolKernel / 2, 1) by {
      assert InWindow(|combined|, PoolKernel / 2, 1, 2);
    }
    assert flags[..2] == [flags[0], flags[1]];
  }

  /** On the same curves the separate test keeps the beat peak at frame 1. */
  lemma SeparateTestKeepsSeamPeak()
    ensures SplitPeaksSeparately([0.0, 1.0], [2.0, 0.0]).beat == [false, true]
  {
    assert IsLocalMax([0.0, 1.0], PoolKernel / 2, 1);
    assert !IsLocalMax([0.0, 1.0], PoolKernel / 2, 0) by {
      assert InWindow(2, PoolKernel / 2, 0, 1);
    }
  }
}

=== FILE: pipeline.dfy ===
/**
  `BeatThis::process_audio`: down-mix, resample to 22050 Hz, mel spectrogram,
  chunked inference, peak decoding and beat numbering, composed. The
  resampler, the Fourier transform, the logarithms of the mel scale and of the
  output, and the network are parameters. Peak decoding is `process` as
  written (Postprocess.ProcessAsWritten); the mel spectrogram of audio too
  short to reflect is empty (Mel.Compute).
 */
module Pipeline {
  import opened Sequences
  import MonoMix
  import Mel
  import Inference
  import Postprocess
  import BeatCounts

  /** Sample rate the model expects. */
  const TargetSampleRate: int := 22050

  /** The numerical components the pipeline calls but does not define. */
  datatype Numerics = Numerics(
    /** Resampling of mono audio from the given rate to TargetSampleRate; None when it fails. */
    resample: (seq<real>, int) -> Inference.Option<seq<real>>,
    logMel: real -> real,
    expHz: real -> real,
    amplitude: (seq<real>, int) -> real,
    log1p: real -> real,
    score: Inference.Spectrogram -> seq<Inference.FrameLogits>)

  /** Beat and downbeat positions as frame indices at Postprocess.Fps frames
      per second, and one count per beat. */
  datatype BeatResult = BeatResult(beats: seq<int>, downbeats: seq<int>, counts: seq<int>)

  datatype Outcome = Success(result: BeatResult) | ResampleFailed

  /** The mono signal at TargetSampleRate, or None when resampling fails. */
  function Resampled(audio: seq<real>, samplerate: int, channels: int, num: Numerics): (r: Inference.Option<seq<real>>)
    requires channels != 0 && MonoMix.IsInt32(channels)
    ensures samplerate == TargetSampleRate ==> r == Inference.Some(MonoMix.ConvertToMono(audio, channels))
  {
    var mono := MonoMix.ConvertToMono(audio, channels);
    if samplerate != TargetSampleRate then num.resample(mono, samplerate) else Inference.Some(mono)
  }

  /** Mel spectrogram of a resampled signal. */
  function Spectrogram(signal: seq<real>, num: Numerics): (spect: Inference.Spectrogram)
    ensures |signal| <= Mel.PadSize ==> spect == []
    ensures |signal| > Mel.PadSize ==> |spect| == |signal| / Mel.HopLength + 1
    ensures Inference.Rectangular(spect)
  {
    var spect := Mel.Compute(signal, Mel.MelFilterbank(num.logMel, num.expHz), num.amplitude, num.log1p);
    assert |spect| > 0 ==> Inference.Width(spect) == Mel.NMels;
    spect
  }

  /** `process_audio`. */
  function ProcessAudio(audio: seq<real>, samplerate: int, channels: int, num: Numerics): (r: Outcome)
    requires channels != 0 && MonoMix.IsInt32(channels)
    ensures r == ResampleFailed <==> Resampled(audio, samplerate, channels, num).None?
    ensures samplerate == TargetSampleRate ==> r.Success?
    ensures r.Success? ==>
              var res := r.result;
              var signal := Resampled(audio, samplerate, channels, num).value;
              && |res.counts| == |res.beats|
              && StrictlyIncreasing(res.beats) && StrictlyIncreasing(res.downbeats)
              && (|res.beats| > 0 ==> SubsetOf(res.downbeats, res.beats))
              && (forall i :: 0 <= i < |res.beats| ==> 0 <= res.beats[i] && res.beats[i] * Mel.HopLength <= |signal|)
              && (forall i :: 0 <= i < |res.downbeats| ==> 0 <= res.downbeats[i] && res.downbeats[i] * Mel.HopLength <= |signal|)
  {
    match Resampled(audio, samplerate, channels, num)
    case None => ResampleFailed
    case Some(signal) =>
      var spect := Spectrogram(signal, num);
      var logits := Inference.ProcessSpectrogram(spect, num.score);
      var decoded := Postprocess.ProcessAsWritten(logits.beat, logits.downbeat);
      FramesWithinSignal(signal, |spect|, decoded.beats);
      FramesWithinSignal(signal, |spect|, decoded.downbeats);
      var numbering := BeatCounts.CalculateBeatCounts(decoded.beats, decoded.downbeats);
      Success(BeatResult(decoded.beats, decoded.downbeats, numbering.counts))
  }

  /** A frame below the spectrogram length is centred at or before the end of
      the signal. */
  lemma FramesWithinSignal(signal: seq<real>, frames: nat, s: seq<int>)
    requires frames == (if |signal| <= Mel.PadSize then 0 else |signal| / Mel.HopLength + 1)
    requires Postprocess.WithinFrames(s, frames)
    ensures forall i :: 0 <= i < |s| ==> 0 <= s[i] && s[i] * Mel.HopLength <= |signal|
  {
    forall i | 0 <= i < |s|
      ensures s[i] * Mel.HopLength <= |signal|
    {
      assert s[i] <= |signal| / Mel.HopLength;
      MulMonotone(s[i], |signal| / Mel.HopLength, Mel.HopLength);
    }
  }

  /** A successful run numbers each beat 1 exactly when it is a downbeat, and
      every other beat one more than the beat before it once a downbeat exists. */
  lemma CountsMarkDownbeats(audio: seq<real>, samplerate: int, channels: int, num: Numerics)
    requires channels != 0 && MonoMix.IsInt32(channels)
    requires ProcessAudio(audio, samplerate, channels, num).Success?
    ensures var res := ProcessAudio(audio, samplerate, channels, num).result;
            && (forall i :: 0 <= i < |res.beats| ==> (res.counts[i] == 1 <==> res.beats[i] in res.downbeats))
            && (|res.downbeats| > 0 ==>
                  forall i :: 0 < i < |res.beats| && res.beats[i] !in res.downbeats ==> res.counts[i] == res.counts[i - 1] + 1)
  {
    var res := ProcessAudio(audio, samplerate, channels, num).result;
    if |res.beats| > 0 {
      BeatCounts.BeatCountsMarkDownbeats(res.beats, res.downbeats);
    }
  }

  /** Audio that is at most PadSize samples long after resampling yields no beats. */
  lemma ShortAudioHasNoBeats(audio: seq<real>, samplerate: int, channels: int, num: Numerics)
    requires channels != 0 && MonoMix.IsInt32(channels)
    requires Resampled(audio, samplerate, channels, num).Some?
    requires |Resampled(audio, samplerate, channels, num).value| <= Mel.PadSize
    ensures ProcessAudio(audio, samplerate, channels, num) == Success(BeatResult([], [], []))
  {
    var signal := Resampled(audio, samplerate, channels, num).value;
    var logits := Inference.ProcessSpectrogram(Spectrogram(signal, num), num.score);
    assert |logits.beat| == 0;
    var decoded := Postprocess.ProcessAsWritten(logits.beat, logits.downbeat);
    assert decoded.beats == [] && decoded.downbeats == [];
  }
}

=== FILE: postprocess.dfy ===
/**
  Decoding of beat and downbeat logits into beat and downbeat positions
  (`Postprocessor::process`). Positions are kept as frame indices; the
  source's times in seconds are the frame index divided by the frame rate,
  see `Seconds`.
 */
module Postprocess {
  import opened Sequences
  import PeakPicking
  import Dedup

  /** Frames per second of the logit curves. */
  const Fps: int := 50

  /** Width passed to `deduplicate_peaks` for both curves. */
  const MergeWidth: int := 1

  /** Time in seconds of a frame index. */
  function Seconds(frame: int): (t: real)
    ensures t * Fps as real == frame as real
  {
    frame as real / Fps as real
  }

  /** Distinct frames are further apart in time than the 1e-6 tolerance of the
      beat numbering, so comparing times within that tolerance, and comparing
      them exactly, both amount to comparing frame indices. */
  lemma ToleranceIsEquality(a: int, b: int)
    ensures -0.000001 < Seconds(a) - Seconds(b) < 0.000001 <==> a == b
    ensures Seconds(a) == Seconds(b) <==> a == b
  {
    var d := Seconds(a) - Seconds(b);
    assert d * 50.0 == (a - b) as real;
    if a > b {
      assert d >= 0.02;
    } else if a < b {
      assert d <= -0.02;
    }
  }

  /** Frame order is time order. */
  lemma SecondsMonotone(a: int, b: int)
    ensures a < b <==> Seconds(a) < Seconds(b)
    ensures 0 <= a ==> 0.0 <= Seconds(a)
  {
  }

  function Distance(a: int, b: int): (d: nat)
    ensures d == a - b || d == b - a
  {
    if a >= b then a - b else b - a
  }

  /** Index of the first beat at minimum distance from `d` among the first `n` beats. */
  function NearestAmong(beats: seq<int>, d: int, n: nat): (j: nat)
    requires 1 <= n <= |beats|
    ensures j < n
    ensures forall k :: 0 <= k < n ==> Distance(beats[j], d) <= Distance(beats[k], d)
    ensures forall k :: 0 <= k < j ==> Distance(beats[j], d) < Distance(beats[k], d)
    decreases n
  {
    if n == 1 then 0
    else
      var j := NearestAmong(beats, d, n - 1);
      if Distance(beats[n - 1], d) < Distance(beats[j], d) then n - 1 else j
  }

  /** The beat index chosen for downbeat `d`: nearest, earliest on ties. */
  function NearestBeat(beats: seq<int>, d: int): (j: nat)
    requires |beats| > 0
    ensures j < |beats|
  {
    NearestAmong(beats, d, |beats|)
  }

  /** The chosen beat is at minimum distance, and every earlier beat is strictly farther. */
  lemma NearestBeatIsFirstMinimum(beats: seq<int>, d: int)
    requires |beats| > 0
    ensures forall k :: 0 <= k < |beats| ==> Distance(beats[NearestBeat(beats, d)], d) <= Distance(beats[k], d)
    ensures forall k :: 0 <= k < NearestBeat(beats, d) ==> Distance(beats[NearestBeat(beats, d)], d) < Distance(beats[k], d)
  {
  }

  /** The search loop of step 4 of `process`; -1 stands for no beat found. */
  method FindNearestBeat(beats: seq<int>, d: int) returns (beatIdx: int)
    ensures |beats| == 0 ==> beatIdx == -1
    ensures |beats| > 0 ==> beatIdx == NearestBeat(beats, d)
  {
    beatIdx := -1;
    var minDiff := 0;
    var j := 0;
    while j < |beats|
      invariant 0 <= j <= |beats|
      invariant j == 0 <==> beatIdx == -1
      invariant j > 0 ==> beatIdx == NearestAmong(beats, d, j) && minDiff == Distance(beats[beatIdx], d)
    {
      var diff := Distance(beats[j], d);
      if beatIdx == -1 || diff < minDiff {
        minDiff := diff;
        beatIdx := j;
      }
      j := j + 1;
    }
  }

  /** Step 4 of `process`: with at least one beat, each downbeat moves to its
      nearest beat; with none, downbeats stay where they are. */
  function SnapDownbeats(beats: seq<int>, downbeats: seq<int>): (r: seq<int>)
    ensures |r| == |downbeats|
    ensures |beats| == 0 ==> r == downbeats
    ensures |beats| > 0 ==> SubsetOf(r, beats)
    ensures |beats| > 0 ==> forall i, k :: 0 <= i < |r| && 0 <= k < |beats| ==>
              Distance(r[i], downbeats[i]) <= Distance(beats[k], downbeats[i])
  {
    if |beats| == 0 then downbeats
    else
      var r := seq(|downbeats|, i requires 0 <= i < |downbeats| => beats[NearestBeat(beats, downbeats[i])]);
      assert forall i :: 0 <= i < |r| ==> r[i] in beats;
      r
  }

  // ---------------------------------------------------------------------------
  // Sorting with duplicate removal (std::sort followed by std::unique)
  // ---------------------------------------------------------------------------

  /** Inserts `x` into a strictly increasing sequence unless already present. */
  function Insert(s: seq<int>, x: int): (r: seq<int>)
    requires StrictlyIncreasing(s)
    ensures StrictlyIncreasing(r)
    ensures forall y :: y in r <==> y in s || y == x
    decreases |s|
  {
    if |s| == 0 then [x]
    else if x < s[0] then
      assert forall i :: 0 <= i < |s| ==> x < s[i];
      [x] + s
    else if x == s[0] then s
    else
      var tail := s[1..];
      var rest := Insert(tail, x);
      assert forall i :: 0 <= i < |rest| ==> rest[i] in rest;
      assert forall i :: 0 <= i < |tail| ==> s[0] < tail[i];
      [s[0]] + rest
  }

  /** The distinct elements of `s`, in increasing order. */
  function SortUnique(s: seq<int>): (r: seq<int>)
    ensures StrictlyIncreasing(r)
    ensures forall y :: y in r <==> y in s
    ensures |r| <= |s|
    decreases |s|
  {
    if |s| == 0 then []
    else
      var front := SortUnique(s[..|s| - 1]);
      var x := s[|s| - 1];
      assert forall y :: y in s <==> y in s[..|s| - 1] || y == x;
      var r := Insert(front, x);
      assert |r| <= |front| + 1 by {
        InsertLength(front, x);
      }
      r
  }

  lemma {:induction false} InsertLength(s: seq<int>, x: int)
    requires StrictlyIncreasing(s)
    ensures |Insert(s, x)| <= |s| + 1
    decreases |s|
  {
    if |s| > 0 && x > s[0] {
      InsertLength(s[1..], x);
    }
  }

  /** A strictly increasing sequence is determined by its elements. */
  lemma {:induction false} SortedByElements(a: seq<int>, b: seq<int>)
    requires StrictlyIncreasing(a) && StrictlyIncreasing(b)
    requires forall y :: y in a <==> y in b
    ensures a == b
    decreases |a|
  {
    if |a| > 0 {
      assert a[0] in a;
    }
    if |b| > 0 {
      assert b[0] in b;
    }
    if |a| > 0 && |b| > 0 {
      assert a[0] == b[0] by {
        var i :| 0 <= i < |b| && b[i] == a[0];
        var j :| 0 <= j < |a| && a[j] == b[0];
      }
      var ta := a[1..];
      var tb := b[1..];
      forall y
        ensures y in ta <==> y in tb
      {
        if y in ta {
          assert y in b && y != b[0];
        }
        if y in tb {
          assert y in a && y != a[0];
        }
      }
      SortedByElements(ta, tb);
      assert a == [a[0]] + ta && b == [b[0]] + tb;
    }
  }

  /** Sorting with duplicate removal leaves a strictly increasing sequence unchanged. */
  lemma SortUniqueOfSorted(s: seq<int>)
    requires StrictlyIncreasing(s)
    ensures SortUnique(s) == s
  {
    SortedByElements(SortUnique(s), s);
  }

  // ---------------------------------------------------------------------------
  // The whole decoder
  // ---------------------------------------------------------------------------

  /** Beat and downbeat positions as frame indices. */
  datatype Decoded = Decoded(beats: seq<int>, downbeats: seq<int>)

  /** Every position lies in [0, n). */
  predicate WithinFrames(s: seq<int>, n: int) {
    forall i :: 0 <= i < |s| ==> 0 <= s[i] < n
  }

  /** Peak frames, merged with width 1: strictly increasing frames of the curve. */
  lemma MergedPeaksWithinFrames(flags: seq<bool>)
    ensures var merged := Dedup.Deduplicate(FrameIndicesOf(flags), MergeWidth);
            StrictlyIncreasing(merged) && WithinFrames(merged, |flags|)
  {
    var frames := FrameIndicesOf(flags);
    Dedup.DeduplicateIncreasing(frames, MergeWidth);
    if |frames| > 0 {
      assert frames[0] in frames && frames[|frames| - 1] in frames;
    }
  }

  function FrameIndicesOf(flags: seq<bool>): seq<int> {
    PeakPicking.FrameIndices(flags)
  }

  /** The decoding steps of `process` after the peak test: merging of nearby
      peaks, snapping of downbeats to beats, then sorting with duplicate removal. */
  function DecodeSplit(split: PeakPicking.PeakSplit): (r: Decoded)
    requires |split.downbeat| == |split.beat|
    ensures StrictlyIncreasing(r.beats) && WithinFrames(r.beats, |split.beat|)
    ensures StrictlyIncreasing(r.downbeats) && WithinFrames(r.downbeats, |split.beat|)
    ensures |r.beats| > 0 ==> SubsetOf(r.downbeats, r.beats)
  {
    var n := |split.beat|;
    var beats := Dedup.Deduplicate(FrameIndicesOf(split.beat), MergeWidth);
    var downbeats := Dedup.Deduplicate(FrameIndicesOf(split.downbeat), MergeWidth);
    MergedPeaksWithinFrames(split.beat);
    MergedPeaksWithinFrames(split.downbeat);
    SnappedWithinFrames(beats, downbeats, n);
    Decoded(beats, SortUnique(SnapDownbeats(beats, downbeats)))
  }

  /** Snapping, sorting and duplicate removal keep downbeats among the frames. */
  lemma SnappedWithinFrames(beats: seq<int>, downbeats: seq<int>, n: int)
    requires WithinFrames(beats, n) && WithinFrames(downbeats, n)
    ensures WithinFrames(SortUnique(SnapDownbeats(beats, downbeats)), n)
  {
    var snapped := SnapDownbeats(beats, downbeats);
    assert WithinFrames(snapped, n) by {
      if |beats| > 0 {
        forall i | 0 <= i < |snapped|
          ensures 0 <= snapped[i] < n
        {
          assert snapped[i] in beats;
        }
      }
    }
    var sorted := SortUnique(snapped);
    forall i | 0 <= i < |sorted|
      ensures 0 <= sorted[i] < n
    {
      assert sorted[i] in snapped;
    }
  }

  /** `process` as written: the peak test runs over the joined curves. */
  function ProcessAsWritten(beatLogits: seq<real>, downbeatLogits: seq<real>): (r: Decoded)
    requires |downbeatLogits| >= |beatLogits|
    ensures StrictlyIncreasing(r.beats) && WithinFrames(r.beats, |beatLogits|)
    ensures StrictlyIncreasing(r.downbeats) && WithinFrames(r.downbeats, |beatLogits|)
    ensures |r.beats| > 0 ==> SubsetOf(r.downbeats, r.beats)
  {
    DecodeSplit(PeakPicking.SplitPeaks(beatLogits, downbeatLogits))
  }

  /** `process` with the peak test run on each curve on its own (see the
      seam finding). */
  function Process(beatLogits: seq<real>, downbeatLogits: seq<real>): (r: Decoded)
    requires |downbeatLogits| >= |beatLogits|
    ensures StrictlyIncreasing(r.beats) && WithinFrames(r.beats, |beatLogits|)
    ensures StrictlyIncreasing(r.downbeats) && WithinFrames(r.downbeats, |beatLogits|)
    ensures |r.beats| > 0 ==> SubsetOf(r.downbeats, r.beats)
  {
    DecodeSplit(PeakPicking.SplitPeaksSeparately(beatLogits, downbeatLogits))
  }

  /** Decoding without beats: the downbeats are the merged downbeat peaks,
      unsnapped. */
  lemma DecodeSplitWithoutBeats(split: PeakPicking.PeakSplit)
    requires |split.downbeat| == |split.beat|
    requires DecodeSplit(split).beats == []
    ensures DecodeSplit(split).downbeats ==
              Dedup.Deduplicate(FrameIndicesOf(split.downbeat), MergeWidth)
  {
    MergedPeaksWithinFrames(split.downbeat);
    SortUniqueOfSorted(Dedup.Deduplicate(FrameIndicesOf(split.downbeat), MergeWidth));
  }

  /** With at least one beat, the decoded downbeats are exactly the beats
      nearest to some merged downbeat peak. */
  lemma DecodedDownbeatsAreSnappedPeaks(beats: seq<int>, peaks: seq<int>)
    requires |beats| > 0
    ensures forall y :: y in SortUnique(SnapDownbeats(beats, peaks)) <==>
              exists i :: 0 <= i < |peaks| && y == beats[NearestBeat(beats, peaks[i])]
  {
    var snapped := SnapDownbeats(beats, peaks);
    assert forall i :: 0 <= i < |peaks| ==> snapped[i] == beats[NearestBeat(beats, peaks[i])];
    forall y | y in snapped
      ensures exists i :: 0 <= i < |peaks| && y == beats[NearestBeat(beats, peaks[i])]
    {
      var i :| 0 <= i < |snapped| && snapped[i] == y;
    }
  }

  /** Decoding with at least one beat: the beats are the merged beat peaks,
      and the downbeats are exactly the beats nearest to some merged
      downbeat peak. */
  lemma DecodeSplitWithBeats(split: PeakPicking.PeakSplit)
    requires |split.downbeat| == |split.beat|
    requires DecodeSplit(split).beats != []
    ensures var beats := Dedup.Deduplicate(FrameIndicesOf(split.beat), MergeWidth);
            var peaks := Dedup.Deduplicate(FrameIndicesOf(split.downbeat), MergeWidth);
            var r := DecodeSplit(split);
            && r.beats == beats
            && forall y :: y in r.downbeats <==>
                 exists i :: 0 <= i < |peaks| && y == beats[NearestBeat(beats, peaks[i])]
  {
    var beats := Dedup.Deduplicate(FrameIndicesOf(split.beat), MergeWidth);
    var peaks := Dedup.Deduplicate(FrameIndicesOf(split.downbeat), MergeWidth);
    assert DecodeSplit(split) == Decoded(beats, SortUnique(SnapDownbeats(beats, peaks)));
    DecodedDownbeatsAreSnappedPeaks(beats, peaks);
  }

  /** `process` as written, without beats: the downbeats are the merged
      downbeat peaks of the joined peak test, unsnapped. */
  lemma ProcessAsWrittenWithoutBeats(beatLogits: seq<real>, downbeatLogits: seq<real>)
    requires |downbeatLogits| >= |beatLogits|
    requires ProcessAsWritten(beatLogits, downbeatLogits).beats == []
    ensures var split := PeakPicking.SplitPeaks(beatLogits, downbeatLogits);
            ProcessAsWritten(beatLogits, downbeatLogits).downbeats ==
              Dedup.Deduplicate(FrameIndicesOf(split.downbeat), MergeWidth)
  {
    DecodeSplitWithoutBeats(PeakPicking.SplitPeaks(beatLogits, downbeatLogits));
  }

  /** `process` as written, with at least one beat: the beats are the merged
      beat peaks of the joined peak test, and the downbeats are exactly the
      beats nearest to some merged downbeat peak. */
  lemma ProcessAsWrittenWithBeats(beatLogits: seq<real>, downbeatLogits: seq<real>)
    requires |downbeatLogits| >= |beatLogits|
    requires ProcessAsWritten(beatLogits, downbeatLogits).beats != []
    ensures var split := PeakPicking.SplitPeaks(beatLogits, downbeatLogits);
            var beats := Dedup.Deduplicate(FrameIndicesOf(split.beat), MergeWidth);
            var peaks := Dedup.Deduplicate(FrameIndicesOf(split.downbeat), MergeWidth);
            var r := ProcessAsWritten(beatLogits, downbeatLogits);
            && r.beats == beats
            && forall y :: y in r.downbeats <==>
                 exists i :: 0 <= i < |peaks| && y == beats[NearestBeat(beats, peaks[i])]
  {
    DecodeSplitWithBeats(PeakPicking.SplitPeaks(beatLogits, downbeatLogits));
  }

  /** Without beats, the downbeats are the merged downbeat peaks, unsnapped. */
  lemma ProcessWithoutBeats(beatLogits: seq<real>, downbeatLogits: seq<real>)
    requires |downbeatLogits| >= |beatLogits|
    requires Process(beatLogits, downbeatLogits).beats == []
    ensures var split := PeakPicking.SplitPeaksSeparately(beatLogits, downbeatLogits);
            Process(beatLogits, downbeatLogits).downbeats ==
              Dedup.Deduplicate(FrameIndicesOf(split.downbeat), MergeWidth)
  {
    DecodeSplitWithoutBeats(PeakPicking.SplitPeaksSeparately(beatLogits, downbeatLogits));
  }

  /** With at least one beat, the beats are the merged beat peaks, and the
      downbeats are exactly the beats nearest to some merged downbeat peak. */
  lemma ProcessWithBeats(beatLogits: seq<real>, downbeatLogits: seq<real>)
    requires |downbeatLogits| >= |beatLogits|
    requires Process(beatLogits, downbeatLogits).beats != []
    ensures var split := PeakPicking.SplitPeaksSeparately(beatLogits, downbeatLogits);
            var beats := Dedup.Deduplicate(FrameIndicesOf(split.beat), MergeWidth);
            var peaks := Dedup.Deduplicate(FrameIndicesOf(split.downbeat), MergeWidth);
            var r := Process(beatLogits, downbeatLogits);
            && r.beats == beats
            && forall y :: y in r.downbeats <==>
                 exists i :: 0 <= i < |peaks| && y == beats[NearestBeat(beats, peaks[i])]
  {
    DecodeSplitWithBeats(PeakPicking.SplitPeaksSeparately(beatLogits, downbeatLogits));
  }

  /** A single peak is kept as it is. */
  lemma MergeSinglePeak(x: int, width: int)
    ensures Dedup.Deduplicate([x], width) == [x]
  {
    Dedup.RunsOfOnePeak(x, width);
    Dedup.IntMeanSingleton(x);
    Dedup.RoundOfInteger(x);
    assert Dedup.Rounded([[x]]) == [x];
  }

  /** Peak flags of a beat curve [0] against a downbeat curve [1]. */
  lemma SplitOfRisingPair()
    ensures PeakPicking.SplitPeaks([0.0], [1.0]) == PeakPicking.PeakSplit([false], [true])
    ensures PeakPicking.SplitPeaksSeparately([0.0], [1.0]) == PeakPicking.PeakSplit([false], [true])
  {
    assert [1.0][..1] == [1.0];
    assert PeakPicking.IsLocalMax([1.0], PeakPicking.PoolKernel / 2, 0);
    var combined := [0.0] + [1.0][..1];
    assert combined == [0.0, 1.0];
    var flags := PeakPicking.PeakFlags(combined);
    assert !flags[0];
    assert flags[1] by {
      assert PeakPicking.IsLocalMax(combined, PeakPicking.PoolKernel / 2, 1);
    }
    assert flags[..1] == [false] && flags[1..] == [true];
  }

  /** A curve with no beat peaks but a downbeat peak yields a downbeat that is not a beat. */
  lemma DownbeatWithoutBeat()
    ensures Process([0.0], [1.0]) == Decoded([], [0])
  {
    SplitOfRisingPair();
    assert FrameIndicesOf([false]) == [];
    assert FrameIndicesOf([true]) == [0];
    MergeSinglePeak(0, MergeWidth);
    assert Dedup.Deduplicate([], MergeWidth) == [];
    SortUniqueOfSorted([0]);
  }
}

=== FILE: sequences.dfy ===
/**
  Shared vocabulary over sequences: ordering predicates, sums and means,
  and flattening of grouped sequences.
 */
module Sequences {

  /** Every element is strictly smaller than every later element. */
  predicate StrictlyIncreasing(s: seq<int>) {
    forall i, j :: 0 <= i < j < |s| ==> s[i] < s[j]
  }

  /** Every element is at most every later element. */
  predicate NonDecreasing(s: seq<int>) {
    forall i, j :: 0 <= i < j < |s| ==> s[i] <= s[j]
  }

  /** Every element of `a` occurs in `b`. */
  predicate SubsetOf(a: seq<int>, b: seq<int>) {
    forall x :: x in a ==> x in b
  }

  /** Adjacent elements increase; enough to conclude StrictlyIncreasing. */
  predicate AdjacentIncreasing(s: seq<int>) {
    forall i :: 0 < i < |s| ==> s[i - 1] < s[i]
  }

  lemma {:induction false} AdjacentIncreasingIsStrict(s: seq<int>)
    requires AdjacentIncreasing(s)
    ensures StrictlyIncreasing(s)
    decreases |s|
  {
    if |s| > 1 {
      var t := s[..|s| - 1];
      assert AdjacentIncreasing(t);
      AdjacentIncreasingIsStrict(t);
      forall i, j | 0 <= i < j < |s|
        ensures s[i] < s[j]
      {
        if j < |s| - 1 {
          assert t[i] < t[j];
        } else if i < j - 1 {
          assert t[i] < t[j - 1];
        }
      }
    }
  }

  /** Multiplying by a non-negative factor preserves order. */
  lemma MulMonotone(a: int, b: int, c: nat)
    requires a <= b
    ensures a * c <= b * c
  {
  }

  /** A sequence of `n` zeros. */
  function Zeros(n: nat): (z: seq<int>)
    ensures |z| == n
    ensures forall i :: 0 <= i < n ==> z[i] == 0
  {
    seq(n, _ => 0)
  }

  /** Left-to-right sum of reals (the order a running accumulator adds them in). */
  function Sum(s: seq<real>): real
    decreases |s|
  {
    if |s| == 0 then 0.0 else Sum(s[..|s| - 1]) + s[|s| - 1]
  }

  /** Arithmetic mean of a non-empty sequence of reals. */
  function Mean(s: seq<real>): real
    requires |s| > 0
  {
    Sum(s) / |s| as real
  }

  /** Left-to-right sum of integers. */
  function Total(s: seq<int>): int
    decreases |s|
  {
    if |s| == 0 then 0 else Total(s[..|s| - 1]) + s[|s| - 1]
  }

  /** Arithmetic mean of a non-empty sequence of integers, as a real. */
  function IntMean(s: seq<int>): real
    requires |s| > 0
  {
    Total(s) as real / |s| as real
  }

  /** Concatenation of a sequence of sequences. */
  function Flatten(ss: seq<seq<int>>): seq<int>
    decreases |ss|
  {
    if |ss| == 0 then [] else Flatten(ss[..|ss| - 1]) + ss[|ss| - 1]
  }

  /** A sum of values in [lo, hi] lies between the count times lo and the count times hi. */
  lemma {:induction false} SumBounds(s: seq<real>, lo: real, hi: real)
    requires forall i :: 0 <= i < |s| ==> lo <= s[i] <= hi
    ensures |s| as real * lo <= Sum(s) <= |s| as real * hi
    decreases |s|
  {
    if |s| > 0 {
      var t := s[..|s| - 1];
      assert forall i :: 0 <= i < |t| ==> t[i] == s[i];
      SumBounds(t, lo, hi);
    }
  }

  /** Division by a positive real preserves a bound scaled by the divisor. */
  lemma DivBounds(x: real, n: real, lo: real, hi: real)
    requires n > 0.0
    requires n * lo <= x <= n * hi
    ensures lo <= x / n <= hi
  {
  }

  /** A non-empty sum of values all above `x` exceeds the count times `x`. */
  lemma {:induction false} SumAbove(s: seq<real>, x: real)
    requires |s| > 0
    requires forall i :: 0 <= i < |s| ==> s[i] > x
    ensures Sum(s) > |s| as real * x
    decreases |s|
  {
    var t := s[..|s| - 1];
    assert forall i :: 0 <= i < |t| ==> t[i] == s[i];
    if |t| > 0 {
      SumAbove(t, x);
    }
  }

  /** A non-empty sum of values all below `x` falls short of the count times `x`. */
  lemma {:induction false} SumBelow(s: seq<real>, x: real)
    requires |s| > 0
    requires forall i :: 0 <= i < |s| ==> s[i] < x
    ensures Sum(s) < |s| as real * x
    decreases |s|
  {
    var t := s[..|s| - 1];
    assert forall i :: 0 <= i < |t| ==> t[i] == s[i];
    if |t| > 0 {
      SumBelow(t, x);
    }
  }

  /** The mean of a non-empty sequence is bracketed by two of its elements:
      some element is at most the mean and some element is at least it. */
  lemma MeanBracketed(s: seq<real>)
    requires |s| > 0
    ensures exists c :: 0 <= c < |s| && s[c] <= Mean(s)
    ensures exists d :: 0 <= d < |s| && Mean(s) <= s[d]
  {
    var m := Mean(s);
    assert Sum(s) == |s| as real * m;
    if forall i :: 0 <= i < |s| ==> s[i] > m {
      SumAbove(s, m);
      assert false;
    }
    if forall i :: 0 <= i < |s| ==> s[i] < m {
      SumBelow(s, m);
      assert false;
    }
  }

  /** A mean of values in [lo, hi] lies in [lo, hi]. */
  lemma MeanBounds(s: seq<real>, lo: real, hi: real)
    requires |s| > 0
    requires forall i :: 0 <= i < |s| ==> lo <= s[i] <= hi
    ensures lo <= Mean(s) <= hi
  {
    SumBounds(s, lo, hi);
    DivBounds(Sum(s), |s| as real, lo, hi);
  }

  /** A total of integers in [lo, hi] lies between the count times lo and the count times hi. */
  lemma {:induction false} TotalBounds(s: seq<int>, lo: int, hi: int)
    requires forall i :: 0 <= i < |s| ==> lo <= s[i] <= hi
    ensures |s| * lo <= Total(s) <= |s| * hi
    decreases |s|
  {
    if |s| > 0 {
      var t := s[..|s| - 1];
      assert forall i :: 0 <= i < |t| ==> t[i] == s[i];
      TotalBounds(t, lo, hi);
    }
  }

  /** A mean of integers in [lo, hi] lies in [lo, hi]. */
  lemma IntMeanBounds(s: seq<int>, lo: int, hi: int)
    requires |s| > 0
    requires forall i :: 0 <= i < |s| ==> lo <= s[i] <= hi
    ensures lo as real <= IntMean(s) <= hi as real
  {
    TotalBounds(s, lo, hi);
    DivBounds(Total(s) as real, |s| as real, lo as real, hi as real);
  }
}
